=== FILE: README.md ===
# Wake-on-access and favourites: a Dafny model

This project models two pieces of the XBMC media centre:

- **Wake-on-access** (`CWakeOnAccess`). When a file on a remote host is accessed, it decides whether to send a Wake-on-LAN magic packet to that host. The model covers:
  - the table of registered hosts;
  - the throttled entry point `WakeUpHost(hostName, msg)`, with its re-entrancy guard on the GUI thread;
  - the staged wake sequence: network wait, quick ping, magic packet, two online waits, services delay;
  - the polling loop `ShowAndWait` and its wait conditions;
  - the MAC discovery completion handler;
  - loading and saving the `wakeonlan.xml` settings file.
- **Favourites** (`CFavouritesDirectory`). The model covers:
  - merging the system and user `favourites.xml` files;
  - the add/remove toggle and the membership test;
  - the builtin command string stored for an item.

Everything is pure: each operation is a function of the state, and of what the environment answers (clock readings, interface state, ping and packet results, the parsed file), and returns the new state.

## Modules

| file | module | what it holds |
|---|---|---|
| `basics.dfy` | `Basics` | `Option`, `uint32`, ASCII case-insensitive equality (`CStdString::Equals`), `Mid`, decimal rendering and reading |
| `timespan.dfy` | `TimeSpan` | `CDateTimeSpan` as whole seconds; `GetTotalSeconds` |
| `wake_entry.dfy` | `WakeEntry` | `WakeUpEntry`, its constructor defaults, the singleton's fields, `IsEnabled`/`SetEnabled` |
| `waiting.dfy` | `Waiting` | `EndTime` on a 32-bit millisecond clock, the three wait conditions, `ShowAndWait` |
| `nesting.dfy` | `Nesting` | the `NestDetect` guard |
| `sequence.dfy` | `WakeSequence` | the staged wake sequence as a trace of stages and an ending |
| `dispatch.dfy` | `Dispatch` | `WakeUpHost(hostName, msg)`, the URL overload, throttling |
| `discovery.dfy` | `Discovery` | `OnJobComplete`, `AddHost` |
| `settings.dfy` | `Settings` | `LoadFromXML`, `SaveToXML` |
| `favourites.dfy` | `Favourites` | `Load`, `LoadFavourites`, `Save`, `AddOrRemove`, `IsFavourite`, `GetExecutePath` |

## Model

| member | source | states |
|---|---|---|
| Basics.DecimalRoundTrip | xbmc/filesystem/FavouritesDirectory.cpp:186 | The `%i` rendering of the context window reads back as the same number, so different windows give different execute strings. |
| TimeSpan.GetTotalSeconds | xbmc/network/WakeOnAccess.cpp:55-60 | Reassembling days, hours, minutes and seconds gives back exactly the span's length in seconds. |
| WakeEntry.NewEntry | xbmc/network/WakeOnAccess.cpp:69-79 | A new entry has no host or MAC, a 300 s timeout and 40/40/5 s waits. A host not known to be awake is due at once; an awake one becomes due only after one timeout. |
| WakeEntry.Initial | xbmc/network/WakeOnAccess.cpp:299-304 | The singleton starts disabled, with no entries, a 20 s network-init limit and a 500 ms settle time. |
| WakeEntry.SetEnabled | xbmc/network/WakeOnAccess.h:36-37 | Afterwards `IsEnabled` reports the flag that was set, and nothing else changes. |
| Waiting.SuccessWaiting | xbmc/network/WakeOnAccess.cpp:116-234 | The three `SuccessWaiting` overrides (base at :116-120, network at :194-214, ping at :231-234). The base condition is never satisfied. The ping condition reports the prober's flag. The network condition restarts its settle period at every poll without an interface, and is satisfied only with an interface up and the settle period over. |
| Waiting.SettleEndTracksLastOutage | xbmc/network/WakeOnAccess.cpp:200-210 | After any run of polls, the network waiter's end time is the one set at the last poll that saw no interface. With no such poll it is still the default, already-past end time. |
| Waiting.NetworkStartMeansSettled | xbmc/network/WakeOnAccess.cpp:197-210 | The network waiter is satisfied at a poll exactly when the interface is up there and either no outage was seen before or the settle time has elapsed since the last one. |
| Waiting.FixedDelayStays | xbmc/network/WakeOnAccess.cpp:116-120 | Polling the base condition leaves it the base condition. |
| Waiting.FixedDelayNeverSatisfied | xbmc/network/WakeOnAccess.cpp:116-120 | The base condition is unsatisfied at every poll, whatever came before. |
| Waiting.TimeoutMs | xbmc/network/WakeOnAccess.cpp:152 | The unsigned seconds-to-milliseconds product is exact for every timeout below 4294968 s. |
| Waiting.Percentage | xbmc/network/WakeOnAccess.cpp:178-181 | Before the deadline, the dialog percentage always lies within 1..99, even though the unsigned product can wrap. |
| Waiting.ShowAndWait | xbmc/network/WakeOnAccess.cpp:150-188 | Three results, each at the first poll that decides it. TimedOut exactly when the deadline has passed there. Success exactly when it has not and the condition holds. Canceled exactly when neither holds and a dialog reports a cancel. Every earlier poll kept waiting. The base condition never gives Success. A dialog shows percentages, all within 1..99; no dialog shows none. |
| Nesting.Enter | xbmc/network/WakeOnAccess.cpp:273-295 | A guard on the GUI thread is too deep exactly when another guard is already alive there. Off the GUI thread it never is. Leaving restores the count. |
| Nesting.NestedTooDeep | xbmc/network/WakeOnAccess.cpp:273-295 | Of guards nested on the GUI thread, the k-th is too deep exactly when at least one guard is alive below it. With none alive at the start, only the outermost call goes ahead and every call nested inside it aborts. Off the GUI thread no call is too deep. |
| Nesting.EnterLeaveInverse | xbmc/network/WakeOnAccess.cpp:276-285 | The destructor undoes the constructor: constructing a guard at the count its destructor leaves gives the same guard back. |
| Nesting.UnwindBalanced | xbmc/network/WakeOnAccess.cpp:273-295 | However many guards are nested and then destroyed, innermost first, the static counter ends where it started. |
| WakeSequence.Run | xbmc/network/WakeOnAccess.cpp:357-419 | Stages run in the source's order, none twice, and the network wait always comes first. The host is reported started exactly when: the network settled, the quick ping went unanswered, the packet was sent, and the first online wait succeeded or timed out before the extended one succeeded. The iffs for network failure, an already-running host and a send failure are stated too. |
| WakeSequence.PingAndFirstOnlineWait | xbmc/network/WakeOnAccess.cpp:374-402 | The quick ping runs, with its 500 ms limit, exactly when the network wait succeeded. The first online wait runs, with the entry's first limit, exactly when the ping went unanswered and the packet was sent. |
| WakeSequence.PacketOnlyForSilentHost | xbmc/network/WakeOnAccess.cpp:374-394 | The magic packet is sent, to the entry's MAC, exactly when the network wait succeeded and the quick ping went unanswered. |
| WakeSequence.ExtendedWaitOnlyAfterTimeout | xbmc/network/WakeOnAccess.cpp:396-410 | The extended online wait runs, with the entry's second limit, exactly when the first wait timed out. A cancelled first wait never leads to it. |
| WakeSequence.ServicesOnlyWhenOnline | xbmc/network/WakeOnAccess.cpp:405-418 | The services delay runs exactly when the host is reported started, and it is the last stage, with the entry's services limit. |
| Dispatch.FindEntry | xbmc/network/WakeOnAccess.cpp:325-329 | Finds the first entry whose host matches ignoring case; no match means no entry matches. |
| Dispatch.FindEntrySameHosts | xbmc/network/WakeOnAccess.cpp:325-329 | Lookup depends only on the hosts of the table, so changing other fields never changes which entry is found. |
| Dispatch.WakeUpHost | xbmc/network/WakeOnAccess.cpp:320-353 | A disabled feature or an unknown host changes nothing, and only the first matching entry is touched. For that entry: throttled exactly when it is not due; aborted exactly when it is due and the call is nested on the GUI thread; woken otherwise. An abort changes nothing. Every other outcome sets the entry's next wake to now plus its timeout. A wake runs the staged sequence for that entry. |
| Dispatch.WakeUpHostForUrl | xbmc/network/WakeOnAccess.cpp:312-318 | A URL without a host name is ignored; any other URL is dispatched by its host name. |
| Dispatch.ThrottledWithinTimeout | xbmc/network/WakeOnAccess.cpp:331-348 | After a call that was not aborted, any access within one timeout of it is throttled. |
| Dispatch.FrequentAccessNeverWakes | xbmc/network/WakeOnAccess.cpp:331-348 | A host whose accesses start inside the throttle window and are never more than one timeout apart is throttled on every access, so it is never woken. |
| Discovery.OnJobComplete | xbmc/network/WakeOnAccess.cpp:495-548 | The table is saved exactly when it changes, and notices appear only while the feature is enabled. While it is enabled, a failure, a changed MAC and an added host each show their own notice. A failed discovery changes nothing. A known host with the same MAC changes nothing. A known host with a new MAC updates only that entry's MAC. An unknown host appends one entry with default settings, treated as awake for one timeout. |
| Discovery.DiscoveryIsRecorded | xbmc/network/WakeOnAccess.cpp:501-530 | After a successful discovery, looking up the host finds an entry that carries the discovered MAC. |
| Discovery.FindEntryAppend | xbmc/network/WakeOnAccess.cpp:526-530 | A host not in the table is found at the entry appended for it. |
| Discovery.RediscoveryChangesNothing | xbmc/network/WakeOnAccess.cpp:504-523 | Delivering the same discovery again changes nothing, saves nothing and shows no notice. |
| Discovery.AddHost | xbmc/network/WakeOnAccess.cpp:421-429 | The list keeps its entries and stays free of empties and case-insensitive duplicates. It grows by one, the new host, exactly when the host is non-empty and not listed. |
| Discovery.AddHostsCollects | xbmc/network/WakeOnAccess.cpp:443-451 | Collecting the host names of a share gives a duplicate-free list of non-empty names. It keeps what was there, lists every non-empty name, and adds nothing else. |
| Settings.GetInt | xbmc/network/WakeOnAccess.cpp:577-583 | A bounded read gives a value only for a present tag, and only within the bounds. An in-range value is returned as is. |
| Settings.LoadEntry | xbmc/network/WakeOnAccess.cpp:589-625 | A `wakeup` element gives an entry exactly when its host and MAC are present and non-empty. The entry is well formed (all numbers in range) and due at load time. Each number starts at the constructor's default (300 s timeout, 40/40/5 s waits): a missing tag keeps it, an in-range value replaces it, and an out-of-range one is clamped or ignored, per the range policy. |
| Settings.LoadEntries | xbmc/network/WakeOnAccess.cpp:586-628 | One entry per usable element, in document order, with that element's host and MAC, each well formed and due at load time. |
| Settings.LoadEntriesPointwise | xbmc/network/WakeOnAccess.cpp:586-628 | Entry k is what the loop body makes of the k-th usable element, so its timeout and waits are read, or defaulted, as for a single element. |
| Settings.LoadFromXML | xbmc/network/WakeOnAccess.cpp:555-629 | The enabled flag always follows the GUI setting. A missing file or a wrong root keeps the previous entries and timings. Otherwise the table is replaced by exactly what the element loop reads: one well-formed entry per usable element, due at load time. Each network timing keeps its previous value when its tag is missing, takes an in-range value, and is clamped or kept for an out-of-range one. |
| Settings.ToInt32 | xbmc/network/WakeOnAccess.cpp:650-652 | An unsigned value passed as `int` keeps its value below 2^31 and always lies in the 32-bit signed range. |
| Settings.SaveToXML | xbmc/network/WakeOnAccess.cpp:631-657 | The written document has the `onaccesswakeup` root and one `wakeup` element per entry. |
| Settings.SaveEntries | xbmc/network/WakeOnAccess.cpp:641-654 | One element per entry, in table order: element k is entry k as `SaveToXML` writes it. |
| Settings.LoadSavedEntries | xbmc/network/WakeOnAccess.cpp:604-614 | Loading saved well-formed entries gives back, entry by entry, the same host, MAC, timeout seconds and waits, now due at load time. |
| Settings.SaveLoadRoundTrip | xbmc/network/WakeOnAccess.cpp:631-657 | Saving a state whose values are in range and loading it again restores both network timings and every entry's settings, in order. |
| Settings.SaveEntriesKeepsOnlySettings | xbmc/network/WakeOnAccess.cpp:647-652 | The saved elements depend only on what the file keeps of each entry; the next wake time is not written. |
| Settings.SaveIsStableUnderReload | xbmc/network/WakeOnAccess.cpp:631-657 | Saving, loading and saving again writes the same document. |
| Favourites.MergeStep | xbmc/filesystem/FavouritesDirectory.cpp:102-113 | One pass of the element loop keeps the list duplicate-free, keeps what was there, and leaves a named element's path listed. |
| Favourites.Merge | xbmc/filesystem/FavouritesDirectory.cpp:99-115 | Merging a file's elements keeps what was there, in order, and never lists a path twice. |
| Favourites.MergeListsEveryPath | xbmc/filesystem/FavouritesDirectory.cpp:99-115 | After merging, the path of every element that has a name and a child is listed. |
| Favourites.MergeAddsOnlyElements | xbmc/filesystem/FavouritesDirectory.cpp:106-112 | Every favourite the merge adds is built from one named element: its name, its child as path, its thumb. |
| Favourites.FirstStaysFirst | xbmc/filesystem/FavouritesDirectory.cpp:99-115 | An element that is the first of its path, with that path not yet listed, stays so after the loop has passed the elements before it. |
| Favourites.MergeFirstWins | xbmc/filesystem/FavouritesDirectory.cpp:104-113 | Of several elements with one path that is not yet listed, the first is the one kept. |
| Favourites.LoadFavourites | xbmc/filesystem/FavouritesDirectory.cpp:81-118 | A load succeeds exactly when the file parsed and its root is exactly `favourites`. A failure leaves the list as it was; a success merges the elements. |
| Favourites.Load | xbmc/filesystem/FavouritesDirectory.cpp:62-79 | Loading always succeeds and lists no path twice. The system favourites come first, and the user's file is merged into them. |
| Favourites.SaveFavourites | xbmc/filesystem/FavouritesDirectory.cpp:120-142 | The written document has the `favourites` root and one element per favourite. |
| Favourites.MergeSaved | xbmc/filesystem/FavouritesDirectory.cpp:126-138 | Merging the saved elements of the rest of a duplicate-free list onto its beginning rebuilds the list. |
| Favourites.SaveThenLoad | xbmc/filesystem/FavouritesDirectory.cpp:120-142 | Loading, into an empty list, what was saved from a duplicate-free list succeeds and gives the same list back. |
| Favourites.GetExecutePath | xbmc/filesystem/FavouritesDirectory.cpp:181-198 | The command ends in `)`. It is an `ActivateWindow` exactly for an item opened as a folder, a `RunScript` exactly for a non-folder script, a `StartAndroidActivity` exactly for a non-folder, non-script Android app, and `PlayMedia` otherwise. The folder form names the context window in decimal and quotes the item's path. The script and app forms drop the 9- and 26-character URL prefixes before quoting. The media form quotes the video tag's file path for a video database item that has one, and the item's path otherwise. |
| Favourites.IndexOfPath | xbmc/filesystem/FavouritesDirectory.cpp:154 | Finds the first favourite whose path matches ignoring case; none found means none matches. |
| Favourites.RemoveFirst | xbmc/filesystem/FavouritesDirectory.cpp:154-158 | With no match the list is unchanged. Otherwise only the first matching favourite is removed, and the others keep their order. |
| Favourites.ToggleEntry | xbmc/filesystem/FavouritesDirectory.cpp:153-167 | A listed path is removed and the list shrinks by one: only the first match goes, and the others keep their order. An unlisted path is appended at the end. |
| Favourites.ToggleEntryFlips | xbmc/filesystem/FavouritesDirectory.cpp:153-167 | On a duplicate-free list, removing the first match leaves no other, so toggling makes a listed path unlisted and an unlisted one listed. |
| Favourites.ToggleEntryTwice | xbmc/filesystem/FavouritesDirectory.cpp:153-167 | Appending an unlisted path and toggling it again removes exactly what was appended. |
| Favourites.NewFavourite | xbmc/filesystem/FavouritesDirectory.cpp:159-166 | A new favourite's path is the execute string. Its label is the item's, or the title derived from its path when the item has none. Its thumbnail is the item's. |
| Favourites.Toggle | xbmc/filesystem/FavouritesDirectory.cpp:144-171 | A listed execute string is removed and the list shrinks by one: only the first match goes, and the others keep their order. An unlisted one is appended as a new favourite at the end. |
| Favourites.ToggleFlipsMembership | xbmc/filesystem/FavouritesDirectory.cpp:153-167 | On a duplicate-free list, toggling makes a listed item unlisted and an unlisted one listed. |
| Favourites.ToggleTwiceRestores | xbmc/filesystem/FavouritesDirectory.cpp:153-167 | Adding an item and then toggling it again gives back the original list. |
| Favourites.IsFavourite | xbmc/filesystem/FavouritesDirectory.cpp:173-179 | An item is a favourite exactly when some loaded favourite's path equals its execute string, ignoring case. |
| Favourites.AddOrRemove | xbmc/filesystem/FavouritesDirectory.cpp:144-171 | A null item fails and writes nothing. Otherwise the result is the save's. The written list is the loaded list with the item toggled, so it holds the item exactly when it was not a favourite before. |
| Favourites.UserFavouritesStay | xbmc/filesystem/FavouritesDirectory.cpp:72-74 | A path in a valid user favourites file is in the loaded list, whatever the system file holds. |
| Favourites.SystemFavouritesStay | xbmc/filesystem/FavouritesDirectory.cpp:62-79 | A path in a valid system favourites file is in the loaded list, whatever the user's file holds. |
| Favourites.SystemFavouriteSurvivesRemoval | xbmc/filesystem/FavouritesDirectory.cpp:144-171 | A favourite listed in the system file is still a favourite after `AddOrRemove` has rewritten the user's file, because removal touches only the user's file. |

## Left out

- Logging, localised strings, toast notifications and the progress-dialog widget are not modelled. Two parts of the dialog are kept: whether one exists, and whether it reports a cancel. `OnJobComplete` keeps only the kind of notice it would queue.
- Name lookup, ping, Wake-on-LAN sending and the interface list are environment answers passed in. This covers `HostToIP`, `PingHost`, `WakeOnLan` and `GetFirstConnectedInterface`.
- `CMACDiscoveryJob::DoWork` (DNS and ARP queries) is not modelled: its result is the input of `OnJobComplete`.
- The job queueing functions are not modelled, because they only hand hosts to the job manager: `QueueMACDiscoveryForHost`, `QueueMACDiscoveryForShare`, `QueueMACDiscoveryForAllRemotes` and `AddHostFromDatabase`. Their host collection is the `AddHost` fold.
- `PingResponseWaiter`'s background prober and its locking are not modelled. The flag it sets reaches the loop as part of each poll. Concurrency between discovery callbacks and `WakeUpHost` is not modelled either.
- Waiting.ShowAndWait: it requires the polls to reach the deadline, i.e. time advances. The `Sleep` between polls is not modelled.
- Waiting.ShowAndWait: each pass reads the clock once. The source reads it again for the percentage, so a pass that straddles the deadline can show 100 % there; the model's 1..99 bound assumes a single reading.
- `EndTime`'s infinite value (0xFFFFFFFF) is not modelled. `timeOutSec * 1000` is always even modulo 2^32, so it never arises from `ShowAndWait`. The settle times come from the 0..5000 ms range.
- TimeSpan.GetTotalSeconds: a `CDateTimeSpan` is whole non-negative seconds, and `GetTotalSeconds` is computed without the 32-bit `int` wrap. No timeout the loader accepts (at most 43200 s) comes near it.
- `CDateTime` is whole seconds on an unbounded integer clock.
- Settings.LoadFromXML: a parsed settings file always has a root element. The code (WakeOnAccess.cpp:566-567) dereferences the root without a null check, so a document with no root element would crash; that case is not modelled.
- Settings.GetInt: `XMLUtils::GetInt` is not part of this model. Whether an out-of-range value is clamped or rejected is a parameter, and every property is proved for both readings.
- The XML parser is not modelled: a settings or favourites file is the record of what the loader reads from it. An unreadable file is `None`. A favourites element's child is its text.
- Favourites.SaveThenLoad: the round trip is stated at the level of that record. How TinyXML writes and re-reads an empty text child is not modelled.
- Case-insensitive comparison folds ASCII letters only. It stands for `CStdString::Equals`, `strcmpi`, and the path lookups of `CFileItemList` (`Contains`, `Get`), whose code is not part of this model.
- `StringUtils::Paramify` and `CUtil::GetTitleFromPath` are uninterpreted function parameters. The `CFileItem` type predicates (`IsScript`, `IsPlayList`, …) are fields of the item. The playlist-as-folders advanced setting is a parameter.
- `HasArt`/`SetArt` are not part of this model. Thumbnail art is a string in which empty means none: `Save` writes the `thumb` attribute only for non-empty art.
- `CFavouritesDirectory::GetDirectory` and `Exists` are not modelled. They only list the loaded favourites or test for the files.
- A nested call aborted by the guard (WakeOnAccess.cpp:342) returns before `nextWake` is assigned at WakeOnAccess.cpp:348. The model follows the code: an aborted call leaves the entry unchanged.
- A fresh `NetworkStartWaiter` holds a default end time, which is already past. So an interface that is up at the first poll satisfies the network wait at once, without a settle period; the settle time applies only after an outage has been seen. The model follows the code.

=== FILE: basics.dfy ===
/** Small shared vocabulary: optional values, the 32-bit unsigned integer
    range, and the case-insensitive string comparison that the source uses
    for host names, MAC addresses and item paths. */
module Basics {

  /** An optional value: a missing XML tag, a missing entry, a null pointer. */
  datatype Option<T> = None | Some(value: T) {
    function GetOr(default: T): T {
      match this
      case Some(v) => v
      case None => default
    }
  }

  const TWO_TO_32: int := 0x1_0000_0000

  /** The range of a C `unsigned int` on the platforms the source targets. */
  type uint32 = x: int | 0 <= x < 0x1_0000_0000

  /** ASCII lower-casing of one character; other characters are unchanged. */
  function LowerAscii(c: char): char {
    if 'A' <= c <= 'Z' then (c as int + 32) as char else c
  }

  /** The string with every ASCII upper-case letter lowered. */
  function Fold(s: string): (r: string)
    ensures |r| == |s|
    ensures forall i :: 0 <= i < |s| ==> r[i] == LowerAscii(s[i])
  {
    seq(|s|, i requires 0 <= i < |s| => LowerAscii(s[i]))
  }

  /** Case-insensitive equality, the meaning of `CStdString::Equals` and of
      `strcmpi(..) == 0` for ASCII text. Locale-specific folding of
      non-ASCII characters is not modelled. */
  predicate EqualsNoCase(a: string, b: string) {
    Fold(a) == Fold(b)
  }

  /** `CStdString::Mid(n)`: the suffix from position `n`, or the empty
      string when `n` is at or beyond the end. */
  function Mid(s: string, n: nat): (r: string)
    ensures |s| <= n ==> r == []
    ensures n < |s| ==> |r| == |s| - n && forall i :: 0 <= i < |r| ==> r[i] == s[n + i]
  {
    if |s| <= n then [] else s[n..]
  }

  predicate StartsWith(s: string, prefix: string) {
    |prefix| <= |s| && s[..|prefix|] == prefix
  }

  /** Decimal rendering of an integer, as printf's `%i` produces it: a
      minus sign for negatives, then the digits without leading zeros. */
  function DecimalString(n: int): (r: string)
    ensures |r| > 0
    ensures forall i :: 0 <= i < |r| ==> r[i] == '-' || '0' <= r[i] <= '9'
  {
    if n < 0 then "-" + NatDigits(-n) else NatDigits(n)
  }

  function NatDigits(n: nat): (r: string)
    ensures |r| > 0
    ensures forall i :: 0 <= i < |r| ==> '0' <= r[i] <= '9'
    decreases n
  {
    var d := [(48 + n % 10) as char];
    if n < 10 then d else NatDigits(n / 10) + d
  }

  /** The value of a string of decimal digits, most significant first. */
  function DigitsValue(s: string): nat
    decreases |s|
  {
    if |s| == 0 then 0
    else DigitsValue(s[..|s| - 1]) * 10 + (if '0' <= s[|s| - 1] <= '9' then s[|s| - 1] as int - 48 else 0)
  }

  /** Reading back what `DecimalString` wrote. */
  function ParseDecimal(s: string): int {
    if |s| > 0 && s[0] == '-' then -(DigitsValue(s[1..]) as int) else DigitsValue(s)
  }

  lemma {:induction false} NatDigitsValue(n: nat)
    ensures DigitsValue(NatDigits(n)) == n
    decreases n
  {
    var r := NatDigits(n);
    if n >= 10 {
      NatDigitsValue(n / 10);
      assert r[..|r| - 1] == NatDigits(n / 10);
    }
  }

  /** The rendering can be read back, so different numbers render
      differently. */
  lemma DecimalRoundTrip(n: int)
    ensures ParseDecimal(DecimalString(n)) == n
  {
    if n < 0 {
      NatDigitsValue(-n);
      assert DecimalString(n)[1..] == NatDigits(-n);
    } else {
      NatDigitsValue(n);
    }
  }
}

=== FILE: discovery.dfy ===
/** MAC discovery bookkeeping (WakeOnAccess.cpp): the completion handler
    `OnJobComplete`, which records a discovered host/MAC pair in the entry
    table, and the `AddHost` helper that collects the host names to probe.
    The probe itself (name lookup and ARP query) is not modelled: its
    result arrives as the handler's input. */
module Discovery {
  import opened Basics
  import opened TimeSpan
  import opened WakeEntry
  import opened Dispatch

  /** `GetHost()` and `GetMAC()` of a finished discovery job. */
  datatype Discovered = Discovered(host: string, mac: string)

  /** The notification queued by the handler, if any. */
  datatype Notice = Quiet | MacChanged | HostAdded | DiscoveryFailed

  /** The new entry table, whether `SaveToXML` was called, and the notice. */
  datatype Completion = Completion(entries: seq<WakeUpEntry>, saved: bool, notice: Notice)

  /** `OnJobComplete(jobID, success, job)` at time `now`. */
  function OnJobComplete(entries: seq<WakeUpEntry>, enabled: bool, success: bool, job: Discovered, now: int)
    : (r: Completion)
    // the table is saved exactly when it changes
    ensures r.saved <==> r.entries != entries
    // notices only while the feature is enabled
    ensures !enabled ==> r.notice == Quiet
    ensures !success ==> r.entries == entries && (r.notice == DiscoveryFailed <==> enabled)
    // a changed MAC and an added host are each announced, while enabled
    ensures success && FindEntry(entries, job.host).Some? &&
            !EqualsNoCase(job.mac, entries[FindEntry(entries, job.host).value].mac) ==>
              (r.notice == MacChanged <==> enabled)
    ensures success && FindEntry(entries, job.host).None? ==> (r.notice == HostAdded <==> enabled)
    ensures success && FindEntry(entries, job.host).Some? ==>
              var i := FindEntry(entries, job.host).value;
              if EqualsNoCase(job.mac, entries[i].mac) then r.entries == entries && r.notice == Quiet
              else r.entries == entries[i := entries[i].(mac := job.mac)]
    ensures success && FindEntry(entries, job.host).None? ==>
              && |r.entries| == |entries| + 1
              && r.entries[..|entries|] == entries
              && var e := r.entries[|entries|];
              && e.host == job.host && e.mac == job.mac
              && GetTotalSeconds(e.timeout) == DEFAULT_TIMEOUT_SEC
              && e.waitOnline1Sec == DEFAULT_WAIT_FOR_ONLINE_SEC_1
              && e.waitOnline2Sec == DEFAULT_WAIT_FOR_ONLINE_SEC_2
              && e.waitServicesSec == DEFAULT_WAIT_FOR_SERVICES_SEC
              && e.nextWake == now + DEFAULT_TIMEOUT_SEC
  {
    if success then
      match FindEntry(entries, job.host)
      case Some(i) =>
        if !EqualsNoCase(job.mac, entries[i].mac) then
          var updated := entries[i := entries[i].(mac := job.mac)];
          assert updated[i].mac == job.mac;
          assert updated != entries by {
            assert !EqualsNoCase(updated[i].mac, entries[i].mac);
          }
          Completion(updated, true, if enabled then MacChanged else Quiet)
        else
          Completion(entries, false, Quiet)
      case None =>
        // a discovered host is evidently awake: make it wait one timeout
        var entry := NewEntry(true, now).(host := job.host, mac := job.mac);
        var appended := entries + [entry];
        assert |appended| != |entries|;
        Completion(appended, true, if enabled then HostAdded else Quiet)
    else
      Completion(entries, false, if enabled then DiscoveryFailed else Quiet)
  }

  /** After a successful discovery the table maps the host to the
      discovered MAC: the first entry for the host carries it. */
  lemma DiscoveryIsRecorded(entries: seq<WakeUpEntry>, enabled: bool, job: Discovered, now: int)
    ensures var r := OnJobComplete(entries, enabled, true, job, now);
            && FindEntry(r.entries, job.host).Some?
            && EqualsNoCase(job.mac, r.entries[FindEntry(r.entries, job.host).value].mac)
  {
    var r := OnJobComplete(entries, enabled, true, job, now);
    match FindEntry(entries, job.host)
    case Some(i) =>
      FindEntrySameHosts(entries, r.entries, job.host);
    case None =>
      FindEntryAppend(entries, r.entries[|entries|], job.host);
      assert r.entries == entries + [r.entries[|entries|]];
  }

  /** A host missing from a table is found at the end of the table with one
      matching entry appended. */
  lemma {:induction false} FindEntryAppend(entries: seq<WakeUpEntry>, e: WakeUpEntry, hostName: string)
    requires FindEntry(entries, hostName).None?
    requires EqualsNoCase(hostName, e.host)
    ensures FindEntry(entries + [e], hostName) == Some(|entries|)
    decreases |entries|
  {
    if |entries| > 0 {
      assert (entries + [e])[1..] == entries[1..] + [e];
      FindEntryAppend(entries[1..], e, hostName);
    }
  }

  /** Delivering the same discovery twice changes nothing the second time
      and does not save again. */
  lemma RediscoveryChangesNothing(entries: seq<WakeUpEntry>, enabled: bool, job: Discovered, now1: int, now2: int)
    ensures var r1 := OnJobComplete(entries, enabled, true, job, now1);
            var r2 := OnJobComplete(r1.entries, enabled, true, job, now2);
            r2.entries == r1.entries && !r2.saved && r2.notice == Quiet
  {
    DiscoveryIsRecorded(entries, enabled, job, now1);
  }

  /** No two hosts are equal ignoring case, and none is empty. */
  predicate HostList(hosts: seq<string>) {
    && (forall i :: 0 <= i < |hosts| ==> hosts[i] != [])
    && (forall i, j :: 0 <= i < j < |hosts| ==> !EqualsNoCase(hosts[i], hosts[j]))
  }

  predicate Listed(host: string, hosts: seq<string>) {
    exists k :: 0 <= k < |hosts| && EqualsNoCase(host, hosts[k])
  }

  /** `AddHost(host, hosts)`: append a non-empty host that is not already
      listed (ignoring case); otherwise leave the list alone. */
  function AddHost(host: string, hosts: seq<string>): (r: seq<string>)
    ensures HostList(hosts) ==> HostList(r)
    ensures hosts <= r && |r| <= |hosts| + 1
    ensures |r| == |hosts| + 1 <==> host != [] && !Listed(host, hosts)
    ensures |r| == |hosts| + 1 ==> r[|hosts|] == host
    ensures host != [] ==> Listed(host, r)
  {
    if Listed(host, hosts) then hosts   // already there
    else if host != [] then hosts + [host]
    else hosts
  }

  /** The `AddHost` loop of `AddHostsFromShare`: every host name in turn. */
  function AddHosts(names: seq<string>, hosts: seq<string>): seq<string>
    decreases |names|
  {
    if |names| == 0 then hosts else AddHosts(names[1..], AddHost(names[0], hosts))
  }

  /** Collecting host names keeps the list duplicate-free and free of
      empties, keeps what was there in order, lists every non-empty name,
      and adds nothing that was not among the names. */
  lemma {:induction false} AddHostsCollects(names: seq<string>, hosts: seq<string>)
    requires HostList(hosts)
    ensures var r := AddHosts(names, hosts);
            && HostList(r)
            && hosts <= r
            && (forall n :: n in names && n != [] ==> Listed(n, r))
            && (forall k :: |hosts| <= k < |r| ==> r[k] in names)
    decreases |names|
  {
    if |names| > 0 {
      var next := AddHost(names[0], hosts);
      AddHostsCollects(names[1..], next);
      var r := AddHosts(names, hosts);
      assert r == AddHosts(names[1..], next);
      forall n | n in names && n != []
        ensures Listed(n, r)
      {
        if n == names[0] {
          var k :| 0 <= k < |next| && EqualsNoCase(n, next[k]);
          assert r[k] == next[k];
        } else {
          assert n in names[1..];
        }
      }
      forall k | |hosts| <= k < |r|
        ensures r[k] in names
      {
        if k < |next| {
          assert k == |hosts| && r[k] == names[0];
        } else {
          assert r[k] in names[1..];
        }
      }
    }
  }
}

=== FILE: dispatch.dfy ===
/** The throttled entry point `WakeUpHost(hostName, customMessage)` and its
    URL overload (WakeOnAccess.cpp). The dispatcher finds the first entry
    whose host matches, lets the wake sequence run only when the entry is
    due and the call is not nested inside another wake on the GUI thread,
    and then pushes the entry's `nextWake` one timeout into the future. */
module Dispatch {
  import opened Basics
  import opened TimeSpan
  import opened WakeEntry
  import Nesting
  import WakeSequence

  /** The index of the first entry whose host equals `hostName`
      (case-insensitively); entries are searched in insertion order. */
  function FindEntry(entries: seq<WakeUpEntry>, hostName: string): (r: Option<nat>)
    ensures r.Some? ==> r.value < |entries| && EqualsNoCase(hostName, entries[r.value].host)
    ensures r.Some? ==> forall j :: 0 <= j < r.value ==> !EqualsNoCase(hostName, entries[j].host)
    ensures r.None? ==> forall j :: 0 <= j < |entries| ==> !EqualsNoCase(hostName, entries[j].host)
    decreases |entries|
  {
    if |entries| == 0 then None
    else if EqualsNoCase(hostName, entries[0].host) then Some(0)
    else match FindEntry(entries[1..], hostName)
         case None => None
         case Some(k) => Some(k + 1)
  }

  /** Lookup depends on the host names alone. */
  lemma {:induction false} FindEntrySameHosts(a: seq<WakeUpEntry>, b: seq<WakeUpEntry>, hostName: string)
    requires |a| == |b|
    requires forall j :: 0 <= j < |a| ==> a[j].host == b[j].host
    ensures FindEntry(a, hostName) == FindEntry(b, hostName)
    decreases |a|
  {
    if |a| > 0 {
      FindEntrySameHosts(a[1..], b[1..], hostName);
    }
  }

  /** `now + server.timeout`. */
  function AddSpan(now: int, ts: Span): int {
    now + ts.secs
  }

  /** What one call did. */
  datatype Outcome =
    | NoHostName       // the URL had no host name
    | Disabled         // the feature is off
    | Unregistered     // no entry for the host
    | Throttled        // the entry was not due; only its nextWake moved
    | Recursive        // nested call on the GUI thread: aborted, nothing moved
    | Woken(trace: WakeSequence.Trace)

  datatype Dispatched = Dispatched(state: WakeOnAccess, outcome: Outcome)

  /** `WakeUpHost(hostName, msg)` at time `now`, on the GUI thread or not,
      with `nest` wake guards already alive there. The wake sequence, if it
      runs, meets the environment answers `o`. */
  function WakeUpHost(s: WakeOnAccess, hostName: string, now: int, guiThread: bool, nest: nat,
                      o: WakeSequence.Outcomes): (r: Dispatched)
    ensures r.state.enabled == s.enabled
    ensures r.state.netInitSec == s.netInitSec && r.state.netSettleMs == s.netSettleMs
    ensures |r.state.entries| == |s.entries|
    ensures !s.enabled ==> r == Dispatched(s, Disabled)
    ensures s.enabled && FindEntry(s.entries, hostName).None? ==> r == Dispatched(s, Unregistered)
    // only the first matching entry is ever touched
    ensures forall j :: 0 <= j < |s.entries| && FindEntry(s.entries, hostName) != Some(j) ==>
              r.state.entries[j] == s.entries[j]
    ensures s.enabled && FindEntry(s.entries, hostName).Some? ==>
              var i := FindEntry(s.entries, hostName).value;
              var e := s.entries[i];
              && (r.outcome == Throttled <==> !IsDue(e, now))
              && (r.outcome == Recursive <==> IsDue(e, now) && guiThread && nest >= 1)
              && (r.outcome.Woken? <==> IsDue(e, now) && !(guiThread && nest >= 1))
              && (r.outcome == Recursive ==> r.state == s)
              && (r.outcome != Recursive ==>
                    r.state.entries[i] == e.(nextWake := now + GetTotalSeconds(e.timeout)))
              && (r.outcome.Woken? ==>
                    r.outcome.trace == WakeSequence.Run(e, s.netInitSec, s.netSettleMs, o))
  {
    if !IsEnabled(s) then Dispatched(s, Disabled)
    else match FindEntry(s.entries, hostName)
      case None => Dispatched(s, Unregistered)
      case Some(i) =>
        var server := s.entries[i];
        var outcome :=
          if IsDue(server, now) then
            var nesting := Nesting.Enter(nest, guiThread);
            if Nesting.TooDeep(nesting) then Recursive
            else Woken(WakeSequence.Run(server, s.netInitSec, s.netSettleMs, o))
          else Throttled;
        if outcome == Recursive then Dispatched(s, Recursive)   // returns before nextWake is set
        else
          var updated := server.(nextWake := AddSpan(now, server.timeout));
          Dispatched(s.(entries := s.entries[i := updated]), outcome)
  }

  /** `WakeUpHost(const CURL&)`: a URL without a host name is ignored,
      otherwise the call is the host-name dispatcher's. */
  function WakeUpHostForUrl(s: WakeOnAccess, urlHostName: string, now: int, guiThread: bool, nest: nat,
                            o: WakeSequence.Outcomes): (r: Dispatched)
    ensures urlHostName == [] ==> r == Dispatched(s, NoHostName)
    ensures urlHostName != [] ==> r == WakeUpHost(s, urlHostName, now, guiThread, nest, o)
  {
    if urlHostName == [] then Dispatched(s, NoHostName)
    else WakeUpHost(s, urlHostName, now, guiThread, nest, o)
  }

  /** After a call that was not aborted, any further access to the same host
      within one timeout is throttled: no second sequence runs. */
  lemma ThrottledWithinTimeout(s: WakeOnAccess, hostName: string, t1: int, t2: int,
                               guiThread: bool, nest: nat, o1: WakeSequence.Outcomes,
                               o2: WakeSequence.Outcomes)
    requires s.enabled
    requires FindEntry(s.entries, hostName).Some?
    requires WakeUpHost(s, hostName, t1, guiThread, nest, o1).outcome != Recursive
    requires t2 <= t1 + GetTotalSeconds(s.entries[FindEntry(s.entries, hostName).value].timeout)
    ensures var r1 := WakeUpHost(s, hostName, t1, guiThread, nest, o1);
            WakeUpHost(r1.state, hostName, t2, guiThread, nest, o2).outcome == Throttled
  {
    var r1 := WakeUpHost(s, hostName, t1, guiThread, nest, o1);
    FindEntrySameHosts(s.entries, r1.state.entries, hostName);
  }

  /** The outcomes of a series of accesses to one host at the given times. */
  function Replay(s: WakeOnAccess, hostName: string, times: seq<int>, guiThread: bool, nest: nat,
                  o: WakeSequence.Outcomes): (outs: seq<Outcome>)
    ensures |outs| == |times|
    decreases |times|
  {
    if |times| == 0 then []
    else
      var r := WakeUpHost(s, hostName, times[0], guiThread, nest, o);
      [r.outcome] + Replay(r.state, hostName, times[1..], guiThread, nest, o)
  }

  /** Every throttled access still moves `nextWake` forward, so a host that
      is accessed more often than once per timeout, starting inside the
      window, is never woken at all. */
  lemma {:induction false} FrequentAccessNeverWakes(s: WakeOnAccess, hostName: string, times: seq<int>,
                                                    guiThread: bool, nest: nat, o: WakeSequence.Outcomes)
    requires s.enabled
    requires FindEntry(s.entries, hostName).Some?
    requires |times| > 0 ==> times[0] <= s.entries[FindEntry(s.entries, hostName).value].nextWake
    requires forall k :: 0 <= k < |times| - 1 ==>
               times[k + 1] <= times[k] + GetTotalSeconds(s.entries[FindEntry(s.entries, hostName).value].timeout)
    ensures forall k :: 0 <= k < |times| ==> Replay(s, hostName, times, guiThread, nest, o)[k] == Throttled
    decreases |times|
  {
    if |times| > 0 {
      var i := FindEntry(s.entries, hostName).value;
      var r := WakeUpHost(s, hostName, times[0], guiThread, nest, o);
      assert r.outcome == Throttled;
      FindEntrySameHosts(s.entries, r.state.entries, hostName);
      assert r.state.entries[i].timeout == s.entries[i].timeout;
      FrequentAccessNeverWakes(r.state, hostName, times[1..], guiThread, nest, o);
      var rest := Replay(r.state, hostName, times[1..], guiThread, nest, o);
      assert Replay(s, hostName, times, guiThread, nest, o) == [Throttled] + rest;
    }
  }
}

=== FILE: favourites.dfy ===
/** The favourites list of `CFavouritesDirectory` (FavouritesDirectory.cpp):
    loading and merging favourites.xml files, the add/remove toggle, the
    membership test and the construction of a favourite's execute string.
    A parsed file is an abstract record of its `favourite` elements. The
    string helpers `Paramify` and `GetTitleFromPath` and the file-type
    predicates of `CFileItem` are not part of this model: the helpers are
    parameters, the predicates are fields of the item. */
module Favourites {
  import opened Basics

  const ROOT_TAG: string := "favourites"

  /** One favourite: its label, its execute string and its thumbnail art
      (empty when it has none). */
  datatype Favourite = Favourite(name: string, path: string, thumb: string)

  /** A `favourite` element: the `name` and `thumb` attributes and the value
      of its first child, each if present. */
  datatype FavouriteElement = FavouriteElement(name: Option<string>, thumb: Option<string>, text: Option<string>)

  /** A parsed favourites file: the root element's name (none for an empty
      document) and its `favourite` children in document order. */
  datatype FavouritesDoc = FavouritesDoc(root: Option<string>, elements: seq<FavouriteElement>)

  /** `CFileItemList::Contains(path)`, comparing paths ignoring case. */
  predicate Contains(items: seq<Favourite>, path: string) {
    exists k :: 0 <= k < |items| && EqualsNoCase(items[k].path, path)
  }

  /** No two favourites share a path. */
  predicate DistinctPaths(items: seq<Favourite>) {
    forall i, j :: 0 <= i < j < |items| ==> !EqualsNoCase(items[i].path, items[j].path)
  }

  /** An element the loader accepts: it has a name and a child. */
  predicate Named(e: FavouriteElement) {
    e.name.Some? && e.text.Some?
  }

  function FromElement(e: FavouriteElement): Favourite
    requires Named(e)
  {
    Favourite(e.name.value, e.text.value, e.thumb.GetOr([]))
  }

  /** Element `k` is the first named element with its path, and that path
      is not yet in `items`: it is the one the merge keeps. */
  predicate FirstOfItsPath(es: seq<FavouriteElement>, items: seq<Favourite>, k: nat)
    requires k < |es|
  {
    && Named(es[k])
    && !Contains(items, es[k].text.value)
    && forall j :: 0 <= j < k && Named(es[j]) ==> !EqualsNoCase(es[j].text.value, es[k].text.value)
  }

  /** One pass of the element loop: a named element whose path is not
      listed yet is appended; any other element is skipped. The pass keeps
      what was there, keeps the list duplicate-free, and leaves a named
      element's path listed. */
  function MergeStep(items: seq<Favourite>, e: FavouriteElement): (r: seq<Favourite>)
    ensures items <= r
    ensures DistinctPaths(items) ==> DistinctPaths(r)
    ensures Named(e) ==> Contains(r, e.text.value)
  {
    if Named(e) && !Contains(items, e.text.value) then
      var r := items + [FromElement(e)];
      assert r[|items|] == FromElement(e);
      r
    else items
  }

  /** The element loop of `LoadFavourites`, over the elements in document
      order. Merging keeps what was there, in order, and never lists a path
      twice. */
  function Merge(es: seq<FavouriteElement>, items: seq<Favourite>): (r: seq<Favourite>)
    ensures items <= r
    ensures DistinctPaths(items) ==> DistinctPaths(r)
    decreases |es|
  {
    if |es| == 0 then items else Merge(es[1..], MergeStep(items, es[0]))
  }

  /** After merging, the path of every named element is listed. */
  lemma {:induction false} MergeListsEveryPath(es: seq<FavouriteElement>, items: seq<Favourite>)
    ensures forall k :: 0 <= k < |es| && Named(es[k]) ==> Contains(Merge(es, items), es[k].text.value)
    decreases |es|
  {
    if |es| > 0 {
      var next := MergeStep(items, es[0]);
      var r := Merge(es, items);
      MergeListsEveryPath(es[1..], next);
      forall k | 0 <= k < |es| && Named(es[k])
        ensures Contains(r, es[k].text.value)
      {
        if k == 0 {
          var w :| 0 <= w < |next| && EqualsNoCase(next[w].path, es[0].text.value);
          assert r[w] == next[w];
        } else {
          assert es[k] == es[1..][k - 1];
        }
      }
    }
  }

  /** `f` is the favourite some named element of `es` gives. */
  predicate FromSomeElement(es: seq<FavouriteElement>, f: Favourite) {
    exists k :: 0 <= k < |es| && Named(es[k]) && f == FromElement(es[k])
  }

  /** Every favourite the merge adds is built from one of the elements. */
  lemma {:induction false} MergeAddsOnlyElements(es: seq<FavouriteElement>, items: seq<Favourite>)
    ensures var r := Merge(es, items);
            forall m :: |items| <= m < |r| ==> FromSomeElement(es, r[m])
    decreases |es|
  {
    if |es| > 0 {
      var next := MergeStep(items, es[0]);
      var r := Merge(es, items);
      MergeAddsOnlyElements(es[1..], next);
      var rest := es[1..];
      assert r == Merge(rest, next);
      forall m | |items| <= m < |r|
        ensures FromSomeElement(es, r[m])
      {
        if m < |next| {
          assert next == items + [FromElement(es[0])];
          assert r[m] == next[m] == FromElement(es[0]);
          assert 0 < |es| && Named(es[0]) && r[m] == FromElement(es[0]);
        } else {
          assert |next| <= m < |Merge(rest, next)|;
          assert FromSomeElement(rest, r[m]);
          var k :| 0 <= k < |rest| && Named(rest[k]) && Merge(rest, next)[m] == FromElement(rest[k]);
          assert es[k + 1] == rest[k];
          assert 0 <= k + 1 < |es| && Named(es[k + 1]) && r[m] == FromElement(es[k + 1]);
        }
      }
    }
  }

  /** Of several named elements with one path, not listed before, the first
      is the one the merge keeps. */
  lemma {:induction false} MergeFirstWins(es: seq<FavouriteElement>, items: seq<Favourite>)
    ensures forall k :: 0 <= k < |es| && FirstOfItsPath(es, items, k) ==> FromElement(es[k]) in Merge(es, items)
    decreases |es|
  {
    if |es| > 0 {
      var e := es[0];
      var next := MergeStep(items, e);
      var r := Merge(es, items);
      MergeFirstWins(es[1..], next);
      forall k | 0 <= k < |es| && FirstOfItsPath(es, items, k)
        ensures FromElement(es[k]) in r
      {
        if k == 0 {
          assert next[|items|] == FromElement(e);
          assert r[|items|] == next[|items|];
        } else {
          assert es[k] == es[1..][k - 1];
          FirstStaysFirst(es, items, k);
        }
      }
    }
  }

  /** An element that is first of its path stays so after the loop has
      passed the elements before it. */
  lemma FirstStaysFirst(es: seq<FavouriteElement>, items: seq<Favourite>, k: nat)
    requires 0 < k < |es|
    requires FirstOfItsPath(es, items, k)
    ensures FirstOfItsPath(es[1..], MergeStep(items, es[0]), k - 1)
  {
    var e := es[0];
    var next := MergeStep(items, e);
    var x := es[k].text.value;
    assert es[1..][k - 1] == es[k];
    if Named(e) && !Contains(items, e.text.value) {
      assert !EqualsNoCase(e.text.value, x);
      forall w | 0 <= w < |next|
        ensures !EqualsNoCase(next[w].path, x)
      {
        if w < |items| {
          assert next[w] == items[w];
        }
      }
    }
    forall j | 0 <= j < k - 1 && Named(es[1..][j])
      ensures !EqualsNoCase(es[1..][j].text.value, x)
    {
      assert es[1..][j] == es[j + 1];
    }
  }

  /** The result of a load: its boolean and the list afterwards. */
  datatype Loaded = Loaded(ok: bool, items: seq<Favourite>)

  /** `LoadFavourites(path, items)` for the file's parse result (none when
      the file cannot be loaded). A wrong or missing root, or an unreadable
      file, fails and adds nothing; otherwise the elements are merged. The
      root name is compared case-sensitively. */
  function LoadFavourites(file: Option<FavouritesDoc>, items: seq<Favourite>): (r: Loaded)
    ensures r.ok <==> file.Some? && file.value.root == Some(ROOT_TAG)
    ensures !r.ok ==> r.items == items
    ensures r.ok ==> r.items == Merge(file.value.elements, items)
  {
    match file
    case None => Loaded(false, items)
    case Some(doc) =>
      if doc.root != Some(ROOT_TAG) then Loaded(false, items)
      else Loaded(true, Merge(doc.elements, items))
  }

  /** `Load(items)`: start empty, merge the system favourites, then the
      user's. A missing file and an unreadable one both add nothing. It
      always succeeds, never lists a path twice, and everything the system
      file provides comes first. */
  function Load(system: Option<FavouritesDoc>, user: Option<FavouritesDoc>): (r: Loaded)
    ensures r.ok
    ensures DistinctPaths(r.items)
    ensures LoadFavourites(system, []).items <= r.items
    // the user's file is merged into what the system file gave
    ensures r.items == LoadFavourites(user, LoadFavourites(system, []).items).items
  {
    var fromSystem := LoadFavourites(system, []).items;
    Loaded(true, LoadFavourites(user, fromSystem).items)
  }

  /** `Save(items)`: the document written to the user's favourites file. */
  function SaveFavourites(items: seq<Favourite>): (doc: FavouritesDoc)
    ensures doc.root == Some(ROOT_TAG)
    ensures |doc.elements| == |items|
    decreases |items|
  {
    if |items| == 0 then FavouritesDoc(Some(ROOT_TAG), [])
    else
      var f := items[0];
      var rest := SaveFavourites(items[1..]);
      FavouritesDoc(Some(ROOT_TAG), [FavouriteElement(Some(f.name), if f.thumb == [] then None else Some(f.thumb), Some(f.path))] + rest.elements)
  }

  /** Loading what `Save` wrote, into an empty list, gives back the list. */
  lemma {:induction false} SaveThenLoad(items: seq<Favourite>)
    requires DistinctPaths(items)
    ensures LoadFavourites(Some(SaveFavourites(items)), []) == Loaded(true, items)
  {
    MergeSaved(items, [], items);
  }

  lemma {:induction false} MergeSaved(done: seq<Favourite>, prefix: seq<Favourite>, items: seq<Favourite>)
    requires DistinctPaths(items)
    requires items == prefix + done
    ensures Merge(SaveFavourites(done).elements, prefix) == items
    decreases |done|
  {
    if |done| > 0 {
      var f := done[0];
      var es := SaveFavourites(done).elements;
      assert es[1..] == SaveFavourites(done[1..]).elements;
      assert !Contains(prefix, f.path) by {
        forall w | 0 <= w < |prefix|
          ensures !EqualsNoCase(prefix[w].path, f.path)
        {
          assert items[w] == prefix[w] && items[|prefix|] == f;
        }
      }
      assert prefix + [f] + done[1..] == items;
      MergeSaved(done[1..], prefix + [f], items);
    }
  }

  /** The item the user acts on: its label, path, folder flag, thumbnail,
      and the `CFileItem` predicates the execute string depends on. */
  datatype FileItem = FileItem(
    title: string,   // the item's label
    path: string,
    isFolder: bool,
    isPlayList: bool,
    isSmartPlayList: bool,
    isScript: bool,
    isAndroidApp: bool,
    isVideoDb: bool,
    videoInfoPath: Option<string>,   // the video tag's file path, if it has one
    thumb: string      // the thumbnail art, empty when it has none
  )

  /** The helpers the module calls but does not define, and the
      playlist-as-folders advanced setting. */
  datatype Helpers = Helpers(
    paramify: string -> string,
    titleFromPath: (string, bool) -> string,
    playlistAsFolders: bool
  )

  /** An item that is opened as a folder window. */
  predicate OpensAsFolder(item: FileItem, playlistAsFolders: bool) {
    item.isFolder && (playlistAsFolders || !(item.isSmartPlayList || item.isPlayList))
  }

  const SCRIPT_PREFIX_LEN: nat := 9     // drops "script://"
  const ANDROID_PREFIX_LEN: nat := 26   // drops "androidapp://sources/apps/"

  /** A builtin command string `name(args)`. */
  function Command(name: string, args: string): (r: string)
    requires |name| > 0
    ensures StartsWith(r, name + "(")
    ensures |r| > |name| && r[0] == name[0] && r[|r| - 1] == ')'
  {
    name + "(" + args + ")"
  }

  /** The path `PlayMedia` is given: a video database item plays from its
      video tag's file path when it has one. */
  function MediaPath(item: FileItem): string {
    if item.isVideoDb && item.videoInfoPath.Some? then item.videoInfoPath.value else item.path
  }

  /** `GetExecutePath(item, contextWindow)`: the builtin command that opens
      the item. Exactly one command form applies, chosen by the item's kind
      in this order: folder, script, Android app, media. */
  function GetExecutePath(item: FileItem, window: int, h: Helpers): (r: string)
    ensures |r| > 0 && r[|r| - 1] == ')'
    ensures StartsWith(r, "ActivateWindow(") <==> OpensAsFolder(item, h.playlistAsFolders)
    ensures StartsWith(r, "RunScript(") <==> !OpensAsFolder(item, h.playlistAsFolders) && item.isScript
    ensures StartsWith(r, "StartAndroidActivity(") <==>
              !OpensAsFolder(item, h.playlistAsFolders) && !item.isScript && item.isAndroidApp
    ensures StartsWith(r, "PlayMedia(") <==>
              !OpensAsFolder(item, h.playlistAsFolders) && !item.isScript && !item.isAndroidApp
    ensures StartsWith(r, "RunScript(") ==> r == Command("RunScript", h.paramify(Mid(item.path, SCRIPT_PREFIX_LEN)))
    ensures StartsWith(r, "StartAndroidActivity(") ==>
              r == Command("StartAndroidActivity", h.paramify(Mid(item.path, ANDROID_PREFIX_LEN)))
    // a folder opens in the given window, named by its decimal number
    ensures StartsWith(r, "ActivateWindow(") ==>
              r == Command("ActivateWindow", DecimalString(window) + "," + h.paramify(item.path))
    ensures StartsWith(r, "PlayMedia(") ==>
              r == Command("PlayMedia", h.paramify(MediaPath(item)))
  {
    if OpensAsFolder(item, h.playlistAsFolders) then
      Command("ActivateWindow", DecimalString(window) + "," + h.paramify(item.path))
    else if item.isScript then
      Command("RunScript", h.paramify(Mid(item.path, SCRIPT_PREFIX_LEN)))
    else if item.isAndroidApp then
      Command("StartAndroidActivity", h.paramify(Mid(item.path, ANDROID_PREFIX_LEN)))
    else
      Command("PlayMedia", h.paramify(MediaPath(item)))
  }

  /** `CFileItemList::Get(path)`: the index of the first favourite whose
      path matches, ignoring case. */
  function IndexOfPath(items: seq<Favourite>, path: string): (r: Option<nat>)
    ensures r.Some? ==> r.value < |items| && EqualsNoCase(items[r.value].path, path)
    ensures r.Some? ==> forall j :: 0 <= j < r.value ==> !EqualsNoCase(items[j].path, path)
    ensures r.None? ==> forall j :: 0 <= j < |items| ==> !EqualsNoCase(items[j].path, path)
    decreases |items|
  {
    if |items| == 0 then None
    else if EqualsNoCase(items[0].path, path) then Some(0)
    else match IndexOfPath(items[1..], path)
         case None => None
         case Some(k) => Some(k + 1)
  }

  /** `CFileItemList::Remove(Get(path))`: drop the first favourite with
      that path. */
  function RemoveFirst(items: seq<Favourite>, path: string): (r: seq<Favourite>)
    ensures IndexOfPath(items, path).None? ==> r == items
    ensures IndexOfPath(items, path).Some? ==>
              var k := IndexOfPath(items, path).value;
              |r| == |items| - 1 && r[..k] == items[..k] && r[k..] == items[k + 1..]
  {
    match IndexOfPath(items, path)
    case None => items
    case Some(k) => items[..k] + items[k + 1..]
  }

  /** The list change of `AddOrRemove` for an execute string `x` and the
      favourite `f` it would add: remove `x` if listed, else append `f`. */
  function ToggleEntry(items: seq<Favourite>, x: string, f: Favourite): (r: seq<Favourite>)
    requires f.path == x
    ensures Contains(items, x) ==> |r| == |items| - 1
    ensures !Contains(items, x) ==> r == items + [f]
    // the first favourite with path `x` goes; the others keep their order
    ensures IndexOfPath(items, x).Some? ==>
              var k := IndexOfPath(items, x).value;
              r[..k] == items[..k] && r[k..] == items[k + 1..]
  {
    match IndexOfPath(items, x)
    case Some(_) => RemoveFirst(items, x)
    case None => items + [f]
  }

  /** On a list without duplicate paths, toggling flips membership. */
  lemma ToggleEntryFlips(items: seq<Favourite>, x: string, f: Favourite)
    requires f.path == x
    requires DistinctPaths(items)
    ensures Contains(ToggleEntry(items, x, f), x) <==> !Contains(items, x)
  {
    var r := ToggleEntry(items, x, f);
    match IndexOfPath(items, x)
    case Some(k) =>
      forall w | 0 <= w < |r|
        ensures !EqualsNoCase(r[w].path, x)
      {
        if w < k {
          assert r[w] == items[w];
        } else {
          assert r[w] == items[w + 1];
          assert !EqualsNoCase(items[k].path, items[w + 1].path);
        }
      }
    case None =>
      assert r[|items|].path == x;
  }

  /** Adding an entry and toggling it again restores the list. */
  lemma ToggleEntryTwice(items: seq<Favourite>, x: string, f: Favourite)
    requires f.path == x
    requires !Contains(items, x)
    ensures ToggleEntry(ToggleEntry(items, x, f), x, f) == items
  {
    var once := ToggleEntry(items, x, f);
    assert once == items + [f];
    assert forall j :: 0 <= j < |items| ==> once[j] == items[j];
    assert EqualsNoCase(once[|items|].path, x);
    assert IndexOfPath(once, x) == Some(|items|);
    assert once[..|items|] == items;
  }

  /** The favourite `AddOrRemove` creates for an item it adds. */
  function NewFavourite(item: FileItem, execute: string, h: Helpers): (f: Favourite)
    ensures f.path == execute
    ensures item.title != [] ==> f.name == item.title
    ensures item.title == [] ==> f.name == h.titleFromPath(item.path, item.isFolder)
    ensures f.thumb == item.thumb
  {
    var name := if item.title == [] then h.titleFromPath(item.path, item.isFolder) else item.title;
    Favourite(name, execute, item.thumb)
  }

  /** The list change of `AddOrRemove` for an item. */
  function Toggle(items: seq<Favourite>, item: FileItem, window: int, h: Helpers): (r: seq<Favourite>)
    ensures var x := GetExecutePath(item, window, h);
            Contains(items, x) ==> |r| == |items| - 1
    ensures var x := GetExecutePath(item, window, h);
            !Contains(items, x) ==> r == items + [NewFavourite(item, x, h)]
    ensures var x := GetExecutePath(item, window, h);
            IndexOfPath(items, x).Some? ==>
              var k := IndexOfPath(items, x).value;
              r[..k] == items[..k] && r[k..] == items[k + 1..]
  {
    var execute := GetExecutePath(item, window, h);
    ToggleEntry(items, execute, NewFavourite(item, execute, h))
  }

  /** On a list without duplicate paths, toggling an item flips whether
      its execute string is listed. */
  lemma ToggleFlipsMembership(items: seq<Favourite>, item: FileItem, window: int, h: Helpers)
    requires DistinctPaths(items)
    ensures var x := GetExecutePath(item, window, h);
            Contains(Toggle(items, item, window, h), x) <==> !Contains(items, x)
  {
    var x := GetExecutePath(item, window, h);
    ToggleEntryFlips(items, x, NewFavourite(item, x, h));
  }

  /** Adding an item and toggling it again restores the list. */
  lemma ToggleTwiceRestores(items: seq<Favourite>, item: FileItem, window: int, h: Helpers)
    requires !Contains(items, GetExecutePath(item, window, h))
    ensures Toggle(Toggle(items, item, window, h), item, window, h) == items
  {
    var x := GetExecutePath(item, window, h);
    ToggleEntryTwice(items, x, NewFavourite(item, x, h));
  }

  /** `IsFavourite(item, contextWindow)`: the item's execute string is in the
      merged list. */
  function IsFavourite(item: FileItem, window: int, h: Helpers,
                       system: Option<FavouritesDoc>, user: Option<FavouritesDoc>): (b: bool)
    ensures b <==> exists k :: 0 <= k < |Load(system, user).items| &&
                     EqualsNoCase(Load(system, user).items[k].path, GetExecutePath(item, window, h))
  {
    var loaded := Load(system, user);
    if !loaded.ok then false
    else Contains(loaded.items, GetExecutePath(item, window, h))
  }

  /** The outcome of `AddOrRemove`: its boolean and the list written to the
      user's favourites file, if any. */
  datatype Toggled = Toggled(ok: bool, written: Option<seq<Favourite>>)

  /** `AddOrRemove(item, contextWindow)`: a null item fails; otherwise the
      merged list is toggled and saved, and the result is the save's. */
  function AddOrRemove(item: Option<FileItem>, window: int, h: Helpers,
                       system: Option<FavouritesDoc>, user: Option<FavouritesDoc>, saveOk: bool): (r: Toggled)
    ensures item.None? ==> r == Toggled(false, None)
    ensures item.Some? ==> r.ok == saveOk && r.written.Some?
    // what is written is the merged list with the item toggled
    ensures item.Some? ==> r.written == Some(Toggle(Load(system, user).items, item.value, window, h))
    ensures item.Some? ==>
              (Contains(r.written.value, GetExecutePath(item.value, window, h))
               <==> !IsFavourite(item.value, window, h, system, user))
  {
    match item
    case None => Toggled(false, None)
    case Some(it) =>
      var items := Load(system, user).items;
      ToggleFlipsMembership(items, it, window, h);
      Toggled(saveOk, Some(Toggle(items, it, window, h)))
  }

  /** A list contains whatever a prefix of it contains. */
  lemma ContainsInPrefix(a: seq<Favourite>, b: seq<Favourite>, x: string)
    requires a <= b
    requires Contains(a, x)
    ensures Contains(b, x)
  {
    var w :| 0 <= w < |a| && EqualsNoCase(a[w].path, x);
    assert b[w] == a[w];
  }

  /** Whatever the system file says, a path the user's file lists is in
      the merged list. */
  lemma UserFavouritesStay(system: Option<FavouritesDoc>, user: FavouritesDoc, x: string)
    requires user.root == Some(ROOT_TAG)
    requires exists k :: 0 <= k < |user.elements| && Named(user.elements[k]) && user.elements[k].text.value == x
    ensures Contains(Load(system, Some(user)).items, x)
  {
    MergeListsEveryPath(user.elements, LoadFavourites(system, []).items);
  }

  /** Whatever the user's file says, a path the system file lists is in
      the merged list. */
  lemma SystemFavouritesStay(system: FavouritesDoc, user: Option<FavouritesDoc>, x: string)
    requires system.root == Some(ROOT_TAG)
    requires exists k :: 0 <= k < |system.elements| && Named(system.elements[k]) && system.elements[k].text.value == x
    ensures Contains(Load(Some(system), user).items, x)
  {
    MergeListsEveryPath(system.elements, []);
    var k :| 0 <= k < |system.elements| && Named(system.elements[k]) && system.elements[k].text.value == x;
    assert Contains(Merge(system.elements, []), system.elements[k].text.value);
    ContainsInPrefix(LoadFavourites(Some(system), []).items, Load(Some(system), user).items, x);
  }

  /** Removal writes only the user's file, and `Load` merges the system
      file first: a favourite that the system file lists stays a favourite
      after `AddOrRemove` however the user toggles it. */
  lemma SystemFavouriteSurvivesRemoval(item: FileItem, window: int, h: Helpers,
                                       system: FavouritesDoc, user: Option<FavouritesDoc>, saveOk: bool)
    requires system.root == Some(ROOT_TAG)
    requires exists k :: 0 <= k < |system.elements| && Named(system.elements[k]) &&
                         system.elements[k].text.value == GetExecutePath(item, window, h)
    ensures var written := AddOrRemove(Some(item), window, h, Some(system), user, saveOk).written.value;
            IsFavourite(item, window, h, Some(system), Some(SaveFavourites(written)))
  {
    var written := AddOrRemove(Some(item), window, h, Some(system), user, saveOk).written.value;
    SystemFavouritesStay(system, Some(SaveFavourites(written)), GetExecutePath(item, window, h));
  }
}

=== FILE: nesting.dfy ===
/** `NestDetect` (WakeOnAccess.cpp): a guard constructed on the stack of
    every due wake call. On the GUI thread it bumps a static counter for its
    lifetime; `TooDeep` reports a guard that is not the outermost one. The
    counter is passed in and out explicitly. */
module Nesting {

  /** The guard while it is alive: the thread it was made on and the value
      of the static counter after construction. */
  datatype NestDetect = NestDetect(guiThread: bool, nest: int)

  /** The constructor. With `nest` the number of guards alive before it,
      the new guard reports "too deep" exactly when it is made on the GUI
      thread while another guard there is still alive, and its destructor
      leaves the counter as it found it. */
  function Enter(nest: nat, guiThread: bool): (g: NestDetect)
    ensures g.guiThread == guiThread
    ensures TooDeep(g) <==> guiThread && nest >= 1
    ensures Leave(g) == nest
  {
    NestDetect(guiThread, if guiThread then nest + 1 else nest)
  }

  /** The destructor: the counter value left behind. */
  function Leave(g: NestDetect): (nest: int) {
    if g.guiThread then g.nest - 1 else g.nest
  }

  /** `TooDeep`: a guard on the GUI thread with another one alive there. */
  predicate TooDeep(g: NestDetect) {
    g.guiThread && g.nest > 1
  }

  /** The destructor undoes the constructor: a guard is the one its
      destructor's counter value would construct again. */
  lemma EnterLeaveInverse(g: NestDetect)
    requires Leave(g) >= 0
    ensures Enter(Leave(g), g.guiThread) == g
  {
  }

  /** The counter after `depth` guards are constructed one inside another,
      starting from `nest`, and then all destroyed, innermost first. */
  function Unwind(nest: nat, depth: nat, guiThread: bool): int
    decreases depth
  {
    if depth == 0 then nest
    else
      var g := Enter(nest, guiThread);
      var inner := Unwind(g.nest as nat, depth - 1, guiThread);
      Leave(g.(nest := inner))
  }

  /** However deep the calls nest, the guards leave the static counter as
      they found it, so a later call on the GUI thread is not refused. */
  lemma {:induction false} UnwindBalanced(nest: nat, depth: nat, guiThread: bool)
    ensures Unwind(nest, depth, guiThread) == nest
    decreases depth
  {
    if depth > 0 {
      var g := Enter(nest, guiThread);
      UnwindBalanced(g.nest as nat, depth - 1, guiThread);
    }
  }

  /** The `k`-th of `k` guards constructed one inside another, the first
      finding the counter at `nest`. */
  function Nested(nest: nat, k: nat, guiThread: bool): NestDetect
    requires k >= 1
    decreases k
  {
    var g := Enter(nest, guiThread);
    if k == 1 then g else Nested(g.nest as nat, k - 1, guiThread)
  }

  /** On the GUI thread the `k`-th nested guard is too deep exactly when
      at least one guard is alive below it; with none alive at the start
      (`nest == 0`), the outermost call may show its progress dialog and
      every call nested inside it aborts. Off the GUI thread no call is
      ever too deep. */
  lemma {:induction false} NestedTooDeep(nest: nat, k: nat, guiThread: bool)
    requires k >= 1
    ensures TooDeep(Nested(nest, k, guiThread)) <==> guiThread && nest + k >= 2
    decreases k
  {
    if k > 1 {
      var g := Enter(nest, guiThread);
      NestedTooDeep(g.nest as nat, k - 1, guiThread);
    }
  }
}

=== FILE: sequence.dfy ===
/** The staged wake sequence `WakeUpHost(const WakeUpEntry&)`
    (WakeOnAccess.cpp): wait for the local network, try a quick ping, send
    the magic packet, wait for the host to answer pings (with one extended
    second chance), then wait a fixed time for its services. The outcome of
    every stage comes from the environment and is passed in; the sequence
    takes the entry by value and returns only a trace, so it cannot change
    the entry. */
module WakeSequence {
  import opened Basics
  import opened WakeEntry
  import opened Waiting

  /** The timeout of the "already running?" ping. */
  const QUICK_PING_MS: nat := 500

  /** The stages, each with the limit the source gives it. */
  datatype Stage =
    | NetworkWait(timeoutSec: uint32, settleMs: uint32)
    | QuickPing(timeoutMs: nat)
    | MagicPacket(mac: string)
    | OnlineWait(timeoutSec: uint32)
    | ExtendedOnlineWait(timeoutSec: uint32)
    | ServicesWait(timeoutSec: uint32)

  /** How the sequence ended. */
  datatype Ending =
    | NetworkUnavailable  // the network wait timed out or was canceled
    | AlreadyRunning      // the quick ping was answered
    | SendFailed          // the magic packet could not be sent
    | NoResponse          // both online waits failed, or the first was canceled
    | Started             // the host answered and the services delay ran

  /** The environment's answer at each stage, consulted only when the stage
      is reached. The services wait has no entry: its result is ignored. */
  datatype Outcomes = Outcomes(
    network: WaitResult,
    pingAnswered: bool,
    packetSent: bool,
    online1: WaitResult,
    online2: WaitResult
  )

  datatype Trace = Trace(stages: seq<Stage>, ending: Ending)

  const NETWORK_WAIT: nat := 0
  const QUICK_PING: nat := 1
  const PACKET: nat := 2
  const ONLINE_WAIT: nat := 3
  const EXTENDED_WAIT: nat := 4
  const SERVICES_WAIT: nat := 5

  /** The position of each stage in the fixed order of the sequence. */
  function Rank(s: Stage): nat {
    match s
    case NetworkWait(_, _) => NETWORK_WAIT
    case QuickPing(_) => QUICK_PING
    case MagicPacket(_) => PACKET
    case OnlineWait(_) => ONLINE_WAIT
    case ExtendedOnlineWait(_) => EXTENDED_WAIT
    case ServicesWait(_) => SERVICES_WAIT
  }

  /** Stages run in the order of the source, none twice. */
  predicate InOrder(stages: seq<Stage>) {
    forall i, j :: 0 <= i < j < |stages| ==> Rank(stages[i]) < Rank(stages[j])
  }

  /** The sequence for `entry`, with the network timings of the singleton. */
  function Run(entry: WakeUpEntry, netInitSec: uint32, netSettleMs: uint32, o: Outcomes): (t: Trace)
    ensures InOrder(t.stages)
    ensures |t.stages| > 0 && t.stages[0] == NetworkWait(netInitSec, netSettleMs)
    ensures t.ending == Started <==>
              && o.network == Success && !o.pingAnswered && o.packetSent
              && (o.online1 == Success || (o.online1 == TimedOut && o.online2 == Success))
    ensures t.ending == NetworkUnavailable <==> o.network != Success
    ensures t.ending == AlreadyRunning <==> o.network == Success && o.pingAnswered
    ensures t.ending == SendFailed <==> o.network == Success && !o.pingAnswered && !o.packetSent
  {
    var network := NetworkWait(netInitSec, netSettleMs);
    var ping := QuickPing(QUICK_PING_MS);
    var packet := MagicPacket(entry.mac);
    var online1 := OnlineWait(entry.waitOnline1Sec);
    var online2 := ExtendedOnlineWait(entry.waitOnline2Sec);
    var services := ServicesWait(entry.waitServicesSec);
    if o.network != Success then
      Trace([network], NetworkUnavailable)
    else if o.pingAnswered then
      Trace([network, ping], AlreadyRunning)
    else if !o.packetSent then
      Trace([network, ping, packet], SendFailed)
    else
      match o.online1
      case Success =>
        Trace([network, ping, packet, online1, services], Started)
      case Canceled =>
        Trace([network, ping, packet, online1], NoResponse)
      case TimedOut =>
        if o.online2 == Success then
          Trace([network, ping, packet, online1, online2, services], Started)
        else
          Trace([network, ping, packet, online1, online2], NoResponse)
  }

  /** Whether a stage of the given rank appears in the trace. */
  predicate Ran(t: Trace, rank: nat) {
    exists k :: 0 <= k < |t.stages| && Rank(t.stages[k]) == rank
  }

  /** The magic packet goes out, to the entry's MAC, only after the network
      has settled and the quick ping went unanswered. */
  lemma PacketOnlyForSilentHost(entry: WakeUpEntry, netInitSec: uint32, netSettleMs: uint32, o: Outcomes)
    ensures var t := Run(entry, netInitSec, netSettleMs, o);
            Ran(t, PACKET) <==> o.network == Success && !o.pingAnswered
    ensures var t := Run(entry, netInitSec, netSettleMs, o);
            forall k :: 0 <= k < |t.stages| && t.stages[k].MagicPacket? ==> t.stages[k].mac == entry.mac
  {
    var t := Run(entry, netInitSec, netSettleMs, o);
    if o.network == Success && !o.pingAnswered {
      assert t.stages[2].MagicPacket?;
    }
  }

  /** The quick ping runs, with its 500 ms limit, exactly when the network
      wait succeeded; the first online wait runs, with the entry's first
      limit, exactly when the magic packet was sent. */
  lemma PingAndFirstOnlineWait(entry: WakeUpEntry, netInitSec: uint32, netSettleMs: uint32, o: Outcomes)
    ensures var t := Run(entry, netInitSec, netSettleMs, o);
            Ran(t, QUICK_PING) <==> o.network == Success
    ensures var t := Run(entry, netInitSec, netSettleMs, o);
            forall k :: 0 <= k < |t.stages| && t.stages[k].QuickPing? ==> t.stages[k].timeoutMs == QUICK_PING_MS
    ensures var t := Run(entry, netInitSec, netSettleMs, o);
            Ran(t, ONLINE_WAIT) <==> o.network == Success && !o.pingAnswered && o.packetSent
    ensures var t := Run(entry, netInitSec, netSettleMs, o);
            forall k :: 0 <= k < |t.stages| && t.stages[k].OnlineWait? ==> t.stages[k].timeoutSec == entry.waitOnline1Sec
  {
    var t := Run(entry, netInitSec, netSettleMs, o);
    if o.network == Success {
      assert t.stages[1].QuickPing?;
      if !o.pingAnswered && o.packetSent {
        assert t.stages[3].OnlineWait?;
      }
    }
  }

  /** The extended online wait follows only a first wait that timed out,
      never one the user canceled, and uses the entry's second limit. */
  lemma ExtendedWaitOnlyAfterTimeout(entry: WakeUpEntry, netInitSec: uint32, netSettleMs: uint32, o: Outcomes)
    ensures var t := Run(entry, netInitSec, netSettleMs, o);
            Ran(t, EXTENDED_WAIT) <==>
              o.network == Success && !o.pingAnswered && o.packetSent && o.online1 == TimedOut
    ensures var t := Run(entry, netInitSec, netSettleMs, o);
            forall k :: 0 <= k < |t.stages| && t.stages[k].ExtendedOnlineWait? ==>
              t.stages[k].timeoutSec == entry.waitOnline2Sec
  {
    var t := Run(entry, netInitSec, netSettleMs, o);
    if o.network == Success && !o.pingAnswered && o.packetSent && o.online1 == TimedOut {
      assert t.stages[4].ExtendedOnlineWait?;
    }
  }

  /** The services delay runs exactly when the sequence ends with the host
      started, i.e. only after an online wait succeeded. */
  lemma ServicesOnlyWhenOnline(entry: WakeUpEntry, netInitSec: uint32, netSettleMs: uint32, o: Outcomes)
    ensures var t := Run(entry, netInitSec, netSettleMs, o);
            Ran(t, SERVICES_WAIT) <==> t.ending == Started
    ensures var t := Run(entry, netInitSec, netSettleMs, o);
            t.ending == Started ==> t.stages[|t.stages| - 1] == ServicesWait(entry.waitServicesSec)
  {
    var t := Run(entry, netInitSec, netSettleMs, o);
    if t.ending == Started {
      assert t.stages[|t.stages| - 1].ServicesWait?;
    }
  }
}

=== FILE: settings.dfy ===
/** `LoadFromXML` / `SaveToXML` (WakeOnAccess.cpp): the settings file
    wakeonlan.xml with root `onaccesswakeup`, the two network timings and
    one `wakeup` element per entry. The parsed document is an abstract
    record: for every tag the loader asks for, its value if present. */
module Settings {
  import opened Basics
  import opened TimeSpan
  import opened WakeEntry

  const ROOT_TAG: string := "onaccesswakeup"

  // The ranges the loader passes to `XMLUtils::GetInt`.
  const MAX_NET_INIT_SEC: int := 5 * 60
  const MAX_NET_SETTLE_MS: int := 5 * 1000
  const MIN_TIMEOUT_SEC: int := 10
  const MAX_TIMEOUT_SEC: int := 12 * 60 * 60
  const MAX_WAIT_ONLINE_SEC: int := 10 * 60
  const MAX_WAIT_SERVICES_SEC: int := 5 * 60

  /** One `wakeup` element: the text of each child tag, if present. */
  datatype WakeupElement = WakeupElement(
    host: Option<string>,
    mac: Option<string>,
    timeout: Option<int>,
    waitOnline: Option<int>,
    waitOnline2: Option<int>,
    waitServices: Option<int>
  )

  /** A parsed settings file: the root element's name, its two timing tags
      and its `wakeup` children in document order. */
  datatype SettingsDoc = SettingsDoc(
    root: string,
    netInitTimeout: Option<int>,
    netSettleTime: Option<int>,
    wakeups: seq<WakeupElement>
  )

  /** How `XMLUtils::GetInt(node, tag, value, min, max)` treats a value
      outside `[min, max]`; the helper is not part of this model, so both
      readings are kept and every property below holds for either. */
  datatype RangeRead = Clamp | Reject

  /** A bounded integer read: absent tags give nothing; a present one gives
      a value within the bounds, the tag's own value when it is in range. */
  function GetInt(tag: Option<int>, lo: int, hi: int, policy: RangeRead): (r: Option<int>)
    requires lo <= hi
    ensures r.Some? ==> tag.Some? && lo <= r.value <= hi
    ensures tag.Some? && lo <= tag.value <= hi ==> r == tag
    ensures policy == Clamp ==> (r.Some? <==> tag.Some?)
  {
    match tag
    case None => None
    case Some(v) =>
      if lo <= v <= hi then Some(v)
      else match policy
        case Clamp => Some(if v < lo then lo else hi)
        case Reject => None
  }

  /** What a bounded tag leaves in a field that held `dflt`: an absent tag
      keeps it, an in-range value is taken as is, and an out-of-range one
      is clamped to the nearer bound or ignored, by the policy. */
  predicate FieldRead(tag: Option<int>, lo: int, hi: int, policy: RangeRead, dflt: int, got: int) {
    if tag.None? then got == dflt
    else if lo <= tag.value <= hi then got == tag.value
    else if policy == Clamp then got == (if tag.value < lo then lo else hi)
    else got == dflt
  }

  /** A bounded read that falls back to the field's value is a field
      read. */
  lemma GetIntIsFieldRead(tag: Option<int>, lo: int, hi: int, policy: RangeRead, dflt: int)
    requires lo <= hi
    ensures FieldRead(tag, lo, hi, policy, dflt, GetInt(tag, lo, hi, policy).GetOr(dflt))
  {
  }

  /** A loaded entry: host and MAC present and every number in its range. */
  predicate WellFormed(e: WakeUpEntry) {
    && e.host != [] && e.mac != []
    && MIN_TIMEOUT_SEC <= GetTotalSeconds(e.timeout) <= MAX_TIMEOUT_SEC
    && e.waitOnline1Sec <= MAX_WAIT_ONLINE_SEC
    && e.waitOnline2Sec <= MAX_WAIT_ONLINE_SEC
    && e.waitServicesSec <= MAX_WAIT_SERVICES_SEC
  }

  /** A `wakeup` element the loader accepts: non-empty host and MAC. */
  predicate Usable(w: WakeupElement) {
    w.host.GetOr([]) != [] && w.mac.GetOr([]) != []
  }

  /** The usable elements, in document order. */
  function Usables(ws: seq<WakeupElement>): (r: seq<WakeupElement>)
    ensures |r| <= |ws|
    ensures forall k :: 0 <= k < |r| ==> Usable(r[k])
    decreases |ws|
  {
    if |ws| == 0 then []
    else (if Usable(ws[0]) then [ws[0]] else []) + Usables(ws[1..])
  }

  /** The body of the loader's loop for one element: a default entry
      (`WakeUpEntry()` at time `now`) filled in from the tags present. */
  function LoadEntry(w: WakeupElement, now: int, policy: RangeRead): (r: Option<WakeUpEntry>)
    ensures r.Some? <==> Usable(w)
    ensures r.Some? ==> WellFormed(r.value) && r.value.nextWake == now
    ensures r.Some? ==> r.value.host == w.host.value && r.value.mac == w.mac.value
    // each number starts at the constructor's default and only a tag changes it
    ensures r.Some? ==>
              FieldRead(w.timeout, MIN_TIMEOUT_SEC, MAX_TIMEOUT_SEC, policy,
                        DEFAULT_TIMEOUT_SEC, GetTotalSeconds(r.value.timeout))
    ensures r.Some? ==>
              FieldRead(w.waitOnline, 0, MAX_WAIT_ONLINE_SEC, policy,
                        DEFAULT_WAIT_FOR_ONLINE_SEC_1, r.value.waitOnline1Sec)
    ensures r.Some? ==>
              FieldRead(w.waitOnline2, 0, MAX_WAIT_ONLINE_SEC, policy,
                        DEFAULT_WAIT_FOR_ONLINE_SEC_2, r.value.waitOnline2Sec)
    ensures r.Some? ==>
              FieldRead(w.waitServices, 0, MAX_WAIT_SERVICES_SEC, policy,
                        DEFAULT_WAIT_FOR_SERVICES_SEC, r.value.waitServicesSec)
  {
    var entry := NewEntry(false, now);
    var host := w.host.GetOr(entry.host);
    var mac := w.mac.GetOr(entry.mac);
    if host == [] then None        // missing or empty <host>
    else if mac == [] then None    // missing or empty <mac>
    else
      GetIntIsFieldRead(w.timeout, MIN_TIMEOUT_SEC, MAX_TIMEOUT_SEC, policy, DEFAULT_TIMEOUT_SEC);
      GetIntIsFieldRead(w.waitOnline, 0, MAX_WAIT_ONLINE_SEC, policy, entry.waitOnline1Sec);
      GetIntIsFieldRead(w.waitOnline2, 0, MAX_WAIT_ONLINE_SEC, policy, entry.waitOnline2Sec);
      GetIntIsFieldRead(w.waitServices, 0, MAX_WAIT_SERVICES_SEC, policy, entry.waitServicesSec);
      var timeout := FromSeconds(GetInt(w.timeout, MIN_TIMEOUT_SEC, MAX_TIMEOUT_SEC, policy).GetOr(DEFAULT_TIMEOUT_SEC));
      var wait1 := GetInt(w.waitOnline, 0, MAX_WAIT_ONLINE_SEC, policy).GetOr(entry.waitOnline1Sec);
      var wait2 := GetInt(w.waitOnline2, 0, MAX_WAIT_ONLINE_SEC, policy).GetOr(entry.waitOnline2Sec);
      var services := GetInt(w.waitServices, 0, MAX_WAIT_SERVICES_SEC, policy).GetOr(entry.waitServicesSec);
      Some(entry.(host := host, mac := mac, timeout := timeout,
                  waitOnline1Sec := wait1, waitOnline2Sec := wait2, waitServicesSec := services))
  }

  /** The loader's loop over the `wakeup` elements. Exactly the usable
      elements become entries, in document order, and every entry is well
      formed and wakeable from `now` on. */
  function LoadEntries(ws: seq<WakeupElement>, now: int, policy: RangeRead): (r: seq<WakeUpEntry>)
    ensures |r| == |Usables(ws)|
    ensures forall k :: 0 <= k < |r| ==>
              && WellFormed(r[k]) && r[k].nextWake == now
              && r[k].host == Usables(ws)[k].host.value
              && r[k].mac == Usables(ws)[k].mac.value
    decreases |ws|
  {
    if |ws| == 0 then []
    else
      var rest := LoadEntries(ws[1..], now, policy);
      match LoadEntry(ws[0], now, policy)
      case Some(e) => [e] + rest
      case None => rest
  }
  /** Entry k of the table is what the loop body makes of the k-th usable
      element, so every field, not only host and MAC, is read as
      `LoadEntry` reads it. */
  lemma {:induction false} LoadEntriesPointwise(ws: seq<WakeupElement>, now: int, policy: RangeRead)
    ensures var r := LoadEntries(ws, now, policy);
            forall k :: 0 <= k < |r| ==> LoadEntry(Usables(ws)[k], now, policy) == Some(r[k])
    decreases |ws|
  {
    if |ws| > 0 {
      LoadEntriesPointwise(ws[1..], now, policy);
      var r := LoadEntries(ws, now, policy);
      var rest := LoadEntries(ws[1..], now, policy);
      if Usable(ws[0]) {
        assert Usables(ws) == [ws[0]] + Usables(ws[1..]);
        assert r == [LoadEntry(ws[0], now, policy).value] + rest;
        forall k | 0 < k < |r|
          ensures LoadEntry(Usables(ws)[k], now, policy) == Some(r[k])
        {
          assert r[k] == rest[k - 1];
          assert Usables(ws)[k] == Usables(ws[1..])[k - 1];
        }
      } else {
        assert Usables(ws) == Usables(ws[1..]);
        assert r == rest;
      }
    }
  }


  /** `LoadFromXML()`: the enabled flag comes from the GUI setting whatever
      happens; a missing file or a wrong root leaves everything else alone;
      otherwise the entries are replaced by the file's and each network
      timing is replaced when its tag is present. */
  function LoadFromXML(s: WakeOnAccess, settingEnabled: bool, file: Option<SettingsDoc>, now: int,
                       policy: RangeRead): (r: WakeOnAccess)
    ensures r.enabled == settingEnabled
    ensures file.None? || !EqualsNoCase(file.value.root, ROOT_TAG) ==>
              r.entries == s.entries && r.netInitSec == s.netInitSec && r.netSettleMs == s.netSettleMs
    ensures file.Some? && EqualsNoCase(file.value.root, ROOT_TAG) ==>
              && |r.entries| == |Usables(file.value.wakeups)|
              && (forall k :: 0 <= k < |r.entries| ==> WellFormed(r.entries[k]) && r.entries[k].nextWake == now)
    // a well-rooted file replaces the table with exactly what the loader's loop reads
    ensures file.Some? && EqualsNoCase(file.value.root, ROOT_TAG) ==>
              r.entries == LoadEntries(file.value.wakeups, now, policy)
    // each network timing is either the one held before or within its range
    ensures r.netInitSec == s.netInitSec || r.netInitSec <= MAX_NET_INIT_SEC
    ensures r.netSettleMs == s.netSettleMs || r.netSettleMs <= MAX_NET_SETTLE_MS
    // in a well-rooted file, each timing keeps the value held before unless its tag changes it
    ensures file.Some? && EqualsNoCase(file.value.root, ROOT_TAG) ==>
              FieldRead(file.value.netInitTimeout, 0, MAX_NET_INIT_SEC, policy, s.netInitSec, r.netInitSec)
    ensures file.Some? && EqualsNoCase(file.value.root, ROOT_TAG) ==>
              FieldRead(file.value.netSettleTime, 0, MAX_NET_SETTLE_MS, policy, s.netSettleMs, r.netSettleMs)
  {
    var s' := SetEnabled(s, settingEnabled);
    match file
    case None => s'                 // unable to load
    case Some(doc) =>
      if !EqualsNoCase(doc.root, ROOT_TAG) then s'
      else
        var netInit := GetInt(doc.netInitTimeout, 0, MAX_NET_INIT_SEC, policy).GetOr(s.netInitSec);
        var netSettle := GetInt(doc.netSettleTime, 0, MAX_NET_SETTLE_MS, policy).GetOr(s.netSettleMs);
        s'.(entries := LoadEntries(doc.wakeups, now, policy), netInitSec := netInit, netSettleMs := netSettle)
  }

  /** `XMLUtils::SetInt` takes an `int`; an `unsigned` argument is converted
      with 32-bit two's-complement wrap-around. */
  function ToInt32(u: uint32): (i: int)
    ensures u < 0x8000_0000 ==> i == u
    ensures -0x8000_0000 <= i < 0x8000_0000
  {
    if u < 0x8000_0000 then u else u - TWO_TO_32
  }

  /** One `wakeup` element as `SaveToXML` writes it: every tag the loader
      reads, the timeout as whole seconds. */
  function SaveEntry(e: WakeUpEntry): WakeupElement {
    WakeupElement(Some(e.host), Some(e.mac), Some(GetTotalSeconds(e.timeout)),
                  Some(ToInt32(e.waitOnline1Sec)), Some(ToInt32(e.waitOnline2Sec)),
                  Some(ToInt32(e.waitServicesSec)))
  }

  /** `SaveToXML()`: the document written; `nextWake` is not persisted. */
  function SaveToXML(s: WakeOnAccess): (doc: SettingsDoc)
    ensures EqualsNoCase(doc.root, ROOT_TAG)
    ensures |doc.wakeups| == |s.entries|
  {
    SettingsDoc(ROOT_TAG, Some(ToInt32(s.netInitSec)), Some(ToInt32(s.netSettleMs)), SaveEntries(s.entries))
  }

  /** The `wakeup` elements, one per entry, in table order. */
  function SaveEntries(es: seq<WakeUpEntry>): (ws: seq<WakeupElement>)
    ensures |ws| == |es|
    ensures forall k :: 0 <= k < |es| ==> ws[k] == SaveEntry(es[k])
    decreases |es|
  {
    if |es| == 0 then [] else [SaveEntry(es[0])] + SaveEntries(es[1..])
  }

  /** What the file keeps of an entry. */
  predicate SameSettings(a: WakeUpEntry, b: WakeUpEntry) {
    && a.host == b.host && a.mac == b.mac
    && GetTotalSeconds(a.timeout) == GetTotalSeconds(b.timeout)
    && a.waitOnline1Sec == b.waitOnline1Sec
    && a.waitOnline2Sec == b.waitOnline2Sec
    && a.waitServicesSec == b.waitServicesSec
  }

  /** A state the file can hold without loss. */
  predicate Persistable(s: WakeOnAccess) {
    && s.netInitSec <= MAX_NET_INIT_SEC
    && s.netSettleMs <= MAX_NET_SETTLE_MS
    && forall k :: 0 <= k < |s.entries| ==> WellFormed(s.entries[k])
  }

  lemma {:induction false} LoadSavedEntries(es: seq<WakeUpEntry>, now: int, policy: RangeRead)
    requires forall k :: 0 <= k < |es| ==> WellFormed(es[k])
    ensures var r := LoadEntries(SaveEntries(es), now, policy);
            |r| == |es| && forall k :: 0 <= k < |es| ==> SameSettings(r[k], es[k]) && r[k].nextWake == now
    decreases |es|
  {
    if |es| > 0 {
      var ws := SaveEntries(es);
      LoadSavedEntries(es[1..], now, policy);
      assert ws[1..] == SaveEntries(es[1..]);
      var e := LoadEntry(ws[0], now, policy);
      assert e.Some? && SameSettings(e.value, es[0]);
      assert LoadEntries(ws, now, policy) == [e.value] + LoadEntries(SaveEntries(es[1..]), now, policy);
    }
  }

  /** Saving and loading again restores the network timings and, entry by
      entry and in order, host, MAC, timeout seconds and waits; `nextWake`
      restarts at the load time. */
  lemma SaveLoadRoundTrip(s: WakeOnAccess, t: WakeOnAccess, enabled: bool, now: int, policy: RangeRead)
    requires Persistable(s)
    ensures var r := LoadFromXML(t, enabled, Some(SaveToXML(s)), now, policy);
            && r.enabled == enabled
            && r.netInitSec == s.netInitSec && r.netSettleMs == s.netSettleMs
            && |r.entries| == |s.entries|
            && forall k :: 0 <= k < |s.entries| ==> SameSettings(r.entries[k], s.entries[k]) && r.entries[k].nextWake == now
  {
    var doc := SaveToXML(s);
    var r := LoadFromXML(t, enabled, Some(doc), now, policy);
    assert r.netInitSec == s.netInitSec by {
      assert GetInt(doc.netInitTimeout, 0, MAX_NET_INIT_SEC, policy) == Some(s.netInitSec as int);
    }
    assert r.netSettleMs == s.netSettleMs by {
      assert GetInt(doc.netSettleTime, 0, MAX_NET_SETTLE_MS, policy) == Some(s.netSettleMs as int);
    }
    assert r.entries == LoadEntries(SaveEntries(s.entries), now, policy);
    LoadSavedEntries(s.entries, now, policy);
  }

  /** The file depends only on what it keeps of each entry. */
  lemma {:induction false} SaveEntriesKeepsOnlySettings(a: seq<WakeUpEntry>, b: seq<WakeUpEntry>)
    requires |a| == |b|
    requires forall k :: 0 <= k < |a| ==> SameSettings(a[k], b[k])
    ensures SaveEntries(a) == SaveEntries(b)
    decreases |a|
  {
    if |a| > 0 {
      SaveEntriesKeepsOnlySettings(a[1..], b[1..]);
    }
  }

  /** A file written by `SaveToXML` is written again unchanged after being
      loaded. */
  lemma SaveIsStableUnderReload(s: WakeOnAccess, t: WakeOnAccess, enabled: bool, now: int, policy: RangeRead)
    requires Persistable(s)
    ensures SaveToXML(LoadFromXML(t, enabled, Some(SaveToXML(s)), now, policy)) == SaveToXML(s)
  {
    SaveLoadRoundTrip(s, t, enabled, now, policy);
    var r := LoadFromXML(t, enabled, Some(SaveToXML(s)), now, policy);
    SaveEntriesKeepsOnlySettings(r.entries, s.entries);
  }
}

=== FILE: timespan.dfy ===
/** The per-host wake timeout is a `CDateTimeSpan`. The span class keeps a
    single tick count and hands out days, hours, minutes and seconds as
    separate, normalised components; `GetTotalSeconds` in WakeOnAccess.cpp
    adds them back together. Every span this component builds is a
    non-negative whole number of seconds (`SetDateTimeSpan(0, 0, 0, n)`), so
    the model keeps whole seconds. */
module TimeSpan {

  datatype Span = Span(secs: nat)

  /** `SetDateTimeSpan(0, 0, 0, n)` and the `timeout(0, 0, 0, n)` constructor. */
  function FromSeconds(n: nat): Span {
    Span(n)
  }

  // The normalised components the span class reports.
  function Days(ts: Span): nat { ts.secs / 86400 }
  function Hours(ts: Span): nat { (ts.secs / 3600) % 24 }
  function Minutes(ts: Span): nat { (ts.secs / 60) % 60 }
  function Seconds(ts: Span): nat { ts.secs % 60 }

  /** `GetTotalSeconds`: the components folded back into seconds. Folding
      them back loses nothing, so the timeout written to the settings file
      is the timeout that was read. */
  function GetTotalSeconds(ts: Span): (r: int)
    ensures r == ts.secs
  {
    var s := ts.secs;
    var m := s / 60;
    var h := m / 60;
    assert s == m * 60 + s % 60;
    assert m == h * 60 + m % 60;
    assert h == s / 3600;
    assert h / 24 == s / 86400;
    assert h == (h / 24) * 24 + h % 24;
    var hours := Hours(ts) + Days(ts) * 24;
    var minutes := Minutes(ts) + hours * 60;
    Seconds(ts) + minutes * 60
  }
}

=== FILE: waiting.dfy ===
/** `ProgressDialogHelper::ShowAndWait` and the wait conditions it polls
    (WakeOnAccess.cpp). The clock is the system's 32-bit millisecond
    counter: `EndTime` measures elapsed time by unsigned subtraction, so a
    wrap of the counter is modelled with `% 2^32`. Each pass of the polling
    loop is one `Poll`: the clock reading and what the environment reports
    at that moment. */
module Waiting {
  import opened Basics

  datatype WaitResult = TimedOut | Canceled | Success

  /** `XbmcThreads::EndTime`: a start reading of the clock and a length. */
  datatype EndTime = EndTime(start: int, total: uint32)

  function Elapsed(e: EndTime, clock: int): uint32 {
    (clock - e.start) % TWO_TO_32
  }

  /** A zero-length end time is past at once. */
  predicate IsTimePast(e: EndTime, clock: int) {
    Elapsed(e, clock) >= e.total
  }

  function MillisLeft(e: EndTime, clock: int): (r: uint32)
    ensures r <= e.total
    ensures r == 0 <==> IsTimePast(e, clock)
  {
    if IsTimePast(e, clock) then 0 else e.total - Elapsed(e, clock)
  }

  /** What one pass of the polling loop observes: the clock, whether the
      first connected interface exists and is enabled, whether the ping
      prober has reported the host online, and whether the progress dialog
      reports a user cancel. */
  datatype Poll = Poll(clock: int, interfaceUp: bool, hostAnswered: bool, canceled: bool)

  /** The wait conditions. `FixedDelay` is the base `WaitCondition`, which is
      never satisfied; `NetworkStart` is `NetworkStartWaiter` with its
      mutable settle end time; `PingResponse` is `PingResponseWaiter`, whose
      flag is set by the background prober and arrives here through the
      poll. */
  datatype Condition =
    | FixedDelay
    | NetworkStart(settleMs: uint32, settleEnd: EndTime)
    | PingResponse

  /** A freshly constructed `NetworkStartWaiter`: its end time is
      default-constructed, i.e. already past. */
  function NetworkStartWaiter(settleMs: uint32): Condition {
    NetworkStart(settleMs, EndTime(0, 0))
  }

  datatype Checked = Checked(satisfied: bool, next: Condition)

  /** `SuccessWaiting()` of each condition at one poll, with the condition's
      state after the call. */
  function SuccessWaiting(c: Condition, p: Poll): (r: Checked)
    ensures c.FixedDelay? ==> !r.satisfied && r.next == c
    ensures c.PingResponse? ==> r.satisfied == p.hostAnswered && r.next == c
    ensures c.NetworkStart? ==> r.next.NetworkStart? && r.next.settleMs == c.settleMs
    ensures c.NetworkStart? && !p.interfaceUp ==>
              !r.satisfied && r.next.settleEnd == EndTime(p.clock, c.settleMs)
    ensures c.NetworkStart? && p.interfaceUp ==>
              r.next == c && (r.satisfied <==> IsTimePast(c.settleEnd, p.clock))
  {
    match c
    case FixedDelay => Checked(false, c)
    case NetworkStart(settle, end) =>
      var online := p.interfaceUp;
      // not online: restart the settle period from this poll
      var end' := if !online then EndTime(p.clock, settle) else end;
      Checked(online && IsTimePast(end', p.clock), NetworkStart(settle, end'))
    case PingResponse => Checked(p.hostAnswered, c)
  }

  /** The condition's state after it has been asked at every poll of `ps`. */
  function ConditionAfter(c: Condition, ps: seq<Poll>): Condition
    decreases |ps|
  {
    if |ps| == 0 then c
    else SuccessWaiting(ConditionAfter(c, ps[..|ps| - 1]), ps[|ps| - 1]).next
  }

  /** Whether the condition, asked at every poll before `i`, answers true at
      poll `i`. */
  predicate SatisfiedAt(c: Condition, ps: seq<Poll>, i: nat)
    requires i < |ps|
  {
    SuccessWaiting(ConditionAfter(c, ps[..i]), ps[i]).satisfied
  }

  /** The index of the last poll that saw no usable interface. */
  function LastOutage(ps: seq<Poll>): (r: Option<nat>)
    ensures r.Some? ==> r.value < |ps| && !ps[r.value].interfaceUp
    ensures r.Some? ==> forall j :: r.value < j < |ps| ==> ps[j].interfaceUp
    ensures r.None? ==> forall j :: 0 <= j < |ps| ==> ps[j].interfaceUp
    decreases |ps|
  {
    if |ps| == 0 then None
    else if !ps[|ps| - 1].interfaceUp then Some(|ps| - 1)
    else LastOutage(ps[..|ps| - 1])
  }

  /** The settle rule stated on its own: the network counts as started at
      poll `i` when an interface is up there and either no outage has been
      seen yet or `settleMs` have passed since the last one. */
  predicate Settled(settleMs: uint32, ps: seq<Poll>, i: nat)
    requires i < |ps|
  {
    && ps[i].interfaceUp
    && match LastOutage(ps[..i])
       case None => true
       case Some(k) => Elapsed(EndTime(ps[k].clock, settleMs), ps[i].clock) >= settleMs
  }

  /** The network waiter's end time always records the last outage seen. */
  lemma {:induction false} SettleEndTracksLastOutage(settleMs: uint32, ps: seq<Poll>)
    ensures ConditionAfter(NetworkStartWaiter(settleMs), ps) ==
            NetworkStart(settleMs, match LastOutage(ps)
                                   case None => EndTime(0, 0)
                                   case Some(k) => EndTime(ps[k].clock, settleMs))
    decreases |ps|
  {
    if |ps| > 0 {
      var init := ps[..|ps| - 1];
      SettleEndTracksLastOutage(settleMs, init);
      if ps[|ps| - 1].interfaceUp {
        assert LastOutage(ps) == LastOutage(init);
        var k := LastOutage(init);
        if k.Some? {
          assert ps[k.value] == init[k.value];
        }
      }
    }
  }

  /** `NetworkStartWaiter` is satisfied exactly when the network has
      settled: never on a poll without an interface, and after an outage
      only once `settleMs` have passed since it. */
  lemma NetworkStartMeansSettled(settleMs: uint32, ps: seq<Poll>, i: nat)
    requires i < |ps|
    ensures SatisfiedAt(NetworkStartWaiter(settleMs), ps, i) <==> Settled(settleMs, ps, i)
  {
    SettleEndTracksLastOutage(settleMs, ps[..i]);
  }

  /** The base condition stays the base condition, so it is never
      satisfied at any poll. */
  lemma {:induction false} FixedDelayNeverSatisfied(ps: seq<Poll>, i: nat)
    requires i < |ps|
    ensures !SatisfiedAt(FixedDelay, ps, i)
  {
    FixedDelayStays(ps[..i]);
  }

  lemma {:induction false} FixedDelayStays(ps: seq<Poll>)
    ensures ConditionAfter(FixedDelay, ps) == FixedDelay
    decreases |ps|
  {
    if |ps| > 0 {
      FixedDelayStays(ps[..|ps| - 1]);
    }
  }

  /** `timeOutSec * 1000` in unsigned arithmetic; it does not wrap for any
      timeout below 4294968 s. */
  function TimeoutMs(sec: uint32): (ms: uint32)
    ensures sec < 4294968 ==> ms == sec * 1000
  {
    (sec * 1000) % TWO_TO_32
  }

  /** The dialog percentage `max((ms_passed * 100) / timeOutMs, 1)`, with the
      product in unsigned arithmetic. It stays within 1..99 while the
      deadline has not passed. */
  function Percentage(passed: uint32, totalMs: uint32): (pct: int)
    requires passed < totalMs
    ensures 1 <= pct <= 99
  {
    var product := (passed * 100) % TWO_TO_32;
    assert product / totalMs < 100 by {
      assert product <= passed * 100;
      assert passed * 100 < totalMs * 100;
    }
    var p := product / totalMs;
    if p < 1 then 1 else p
  }

  /** Nothing ends the wait at poll `i`: the deadline has not passed, the
      condition is not satisfied and no dialog reports a cancel. */
  predicate KeepsWaiting(hasDialog: bool, c: Condition, end: EndTime, ps: seq<Poll>, i: nat)
    requires i < |ps|
  {
    !IsTimePast(end, ps[i].clock) && !SatisfiedAt(c, ps, i) && !(hasDialog && ps[i].canceled)
  }

  /** `ShowAndWait(waitObj, timeOutSec, line1)`, begun with the clock at
      `start`. `polls` are the observations of successive loop passes; the
      last one must lie past the deadline, i.e. time does advance. Returns
      the result, the index `n` of the poll that decided it, and the
      percentages shown on the dialog (none without a dialog). */
  method ShowAndWait(hasDialog: bool, cond: Condition, timeOutSec: uint32, start: int, polls: seq<Poll>)
    returns (r: WaitResult, n: nat, shown: seq<int>)
    requires |polls| > 0
    requires IsTimePast(EndTime(start, TimeoutMs(timeOutSec)), polls[|polls| - 1].clock)
    ensures n < |polls|
    ensures forall i :: 0 <= i < n ==>
              KeepsWaiting(hasDialog, cond, EndTime(start, TimeoutMs(timeOutSec)), polls, i)
    ensures r == TimedOut <==> IsTimePast(EndTime(start, TimeoutMs(timeOutSec)), polls[n].clock)
    ensures r == Success <==>
              !IsTimePast(EndTime(start, TimeoutMs(timeOutSec)), polls[n].clock) && SatisfiedAt(cond, polls, n)
    ensures r == Canceled <==>
              && !IsTimePast(EndTime(start, TimeoutMs(timeOutSec)), polls[n].clock)
              && !SatisfiedAt(cond, polls, n)
              && hasDialog && polls[n].canceled
    ensures cond.FixedDelay? ==> r != Success
    ensures hasDialog <==> |shown| > 0
    ensures forall k :: 0 <= k < |shown| ==> 1 <= shown[k] <= 99
  {
    var end := EndTime(start, TimeoutMs(timeOutSec));
    shown := if hasDialog then [1] else [];   // start at 1% to avoid flicker
    var c := cond;
    var i := 0;
    while !IsTimePast(end, polls[i].clock)
      invariant 0 <= i < |polls|
      invariant c == ConditionAfter(cond, polls[..i])
      invariant cond.FixedDelay? ==> c.FixedDelay?
      invariant forall j :: 0 <= j < i ==> KeepsWaiting(hasDialog, cond, end, polls, j)
      invariant hasDialog <==> |shown| > 0
      invariant forall k :: 0 <= k < |shown| ==> 1 <= shown[k] <= 99
      decreases |polls| - i
    {
      var checked := SuccessWaiting(c, polls[i]);
      if checked.satisfied {
        return Success, i, shown;
      }
      if hasDialog {
        if polls[i].canceled {
          return Canceled, i, shown;
        }
        var passed := end.total - MillisLeft(end, polls[i].clock);
        shown := shown + [Percentage(passed, end.total)];
      }
      assert polls[..i + 1][..i] == polls[..i];
      c := checked.next;
      i := i + 1;
    }
    return TimedOut, i, shown;
  }
}

=== FILE: wake_entry.dfy ===
/** The records of `CWakeOnAccess` (WakeOnAccess.h): one `WakeUpEntry` per
    managed host, kept in an ordered vector, plus the network timing values
    and the enabled flag. Times of day are whole seconds (the resolution of
    `CDateTime`). */
module WakeEntry {
  import opened Basics
  import opened TimeSpan

  const DEFAULT_NETWORK_INIT_SEC: uint32 := 20
  const DEFAULT_NETWORK_SETTLE_MS: uint32 := 500
  const DEFAULT_TIMEOUT_SEC: nat := 5 * 60
  const DEFAULT_WAIT_FOR_ONLINE_SEC_1: uint32 := 40
  const DEFAULT_WAIT_FOR_ONLINE_SEC_2: uint32 := 40
  const DEFAULT_WAIT_FOR_SERVICES_SEC: uint32 := 5

  /** Per-host settings. The three waits are `unsigned int` in the source,
      so they can never be negative. */
  datatype WakeUpEntry = WakeUpEntry(
    host: string,
    mac: string,
    timeout: Span,
    waitOnline1Sec: uint32,   // initial wait for the host to answer pings
    waitOnline2Sec: uint32,   // extended wait
    waitServicesSec: uint32,  // fixed delay for file-sharing services
    nextWake: int             // no wake attempt until the clock is past this
  )

  /** The throttle test of the dispatcher: a wake attempt is allowed only
      once the clock is strictly past `nextWake`. */
  predicate IsDue(e: WakeUpEntry, now: int) {
    now > e.nextWake
  }

  /** The `WakeUpEntry(bool isAwake = false)` constructor at time `now`: an
      entry that is not known to be awake may be woken straight away, one
      that is awake is left alone for one default timeout. */
  function NewEntry(isAwake: bool, now: int): (e: WakeUpEntry)
    ensures e.host == [] && e.mac == []
    ensures GetTotalSeconds(e.timeout) == DEFAULT_TIMEOUT_SEC
    ensures e.waitOnline1Sec == DEFAULT_WAIT_FOR_ONLINE_SEC_1
    ensures e.waitOnline2Sec == DEFAULT_WAIT_FOR_ONLINE_SEC_2
    ensures e.waitServicesSec == DEFAULT_WAIT_FOR_SERVICES_SEC
    ensures forall t :: t > now ==> (IsDue(e, t) <==> !isAwake || t > now + DEFAULT_TIMEOUT_SEC)
    ensures !isAwake ==> e.nextWake == now
  {
    var timeout := FromSeconds(DEFAULT_TIMEOUT_SEC);
    WakeUpEntry([], [], timeout,
                DEFAULT_WAIT_FOR_ONLINE_SEC_1, DEFAULT_WAIT_FOR_ONLINE_SEC_2,
                DEFAULT_WAIT_FOR_SERVICES_SEC,
                if isAwake then now + GetTotalSeconds(timeout) else now)
  }

  /** The singleton's state. `nest` is not here: it belongs to the
      recursion guard (module Nesting). */
  datatype WakeOnAccess = WakeOnAccess(
    entries: seq<WakeUpEntry>,
    netInitSec: uint32,   // how long to wait for a connected interface
    netSettleMs: uint32,  // how long the interface must stay up
    enabled: bool
  )

  /** The `CWakeOnAccess()` constructor: no entries, default network
      timings, feature off. */
  function Initial(): (s: WakeOnAccess)
    ensures s.entries == [] && !s.enabled
    ensures s.netInitSec == 20 && s.netSettleMs == 500
  {
    WakeOnAccess([], DEFAULT_NETWORK_INIT_SEC, DEFAULT_NETWORK_SETTLE_MS, false)
  }

  function IsEnabled(s: WakeOnAccess): bool {
    s.enabled
  }

  /** `SetEnabled`: `IsEnabled` afterwards reports exactly the value given,
      and nothing else of the state changes. */
  function SetEnabled(s: WakeOnAccess, enabled: bool): (r: WakeOnAccess)
    ensures IsEnabled(r) == enabled
    ensures r.entries == s.entries
    ensures r.netInitSec == s.netInitSec && r.netSettleMs == s.netSettleMs
  {
    s.(enabled := enabled)
  }
}
